=== FILE: README.md ===
# A verified model of `s21::List<int>` and `s21::Queue<int>`

This project models two C++ containers and proves properties about the model:

- `s21::List<T>`, a doubly-linked list. It owns a chain of nodes through `head_`, `tail_` and `size_`. It has bidirectional iterators whose `End()` is the null position. It offers the usual container operations and the list algorithms Merge, Splice, Reverse, Unique and Sort.
- `s21::Queue<T>`, a FIFO adaptor that delegates to one list.

Elements are `int`.

## How the model is built

**The list is an arena.** It is modelled as an immutable datatype `ListNode.List(val, next, prev, head, tail, size)`.
- Node `p` has value `val[p]`, successor `next[p]` and predecessor `prev[p]`.
- `Null` (-1) stands for the null pointer.
- `head`, `tail` and `size` are the class's three fields.

**The abstraction.** The content of a list is the chain of nodes met by following `next` from `head` for `size` steps (`Order`), and the values at those nodes (`Elements`).

**The invariant.** `Valid` is the representation invariant:
- the chain has `size` distinct nodes inside the arena;
- `next` and `prev` mirror each other along the chain;
- `head` and `tail` are its ends;
- `head` and `tail` are both `Null` exactly when `size` is 0.

**Iterators.** An iterator is a node index, with `Null` for `End()`. Its `Position` is its index in the chain, or `size` for `End()`.

**Errors.** Every `std::out_of_range` the container throws becomes an `Err` outcome. `EmptyContainer` covers Front, Back and the pops on an empty container. `NullIterator` covers dereferencing or erasing `End()`.

**Modules:**
- `Sequences`: reference definitions on `seq<int>`, and the facts about them.
  - `MergeSeq` is the two-cursor merge with a tie rule as a parameter. `IsGreedyMerge` leaves the tie rule open.
  - `UniqueSeq` and `RunHeads` describe the drop-adjacent-repeats operation.
  - `Reversed` reverses a sequence.
  - `SortSeq` is an insertion sort.
  - `Sorted` is the order predicate.
- `ListNode`: the node graph, `Valid`, positions, and both iterator classes. This covers `Begin`/`End`/`Cbegin`/`Cend`, dereference, `++`, `--`, post-increment and post-decrement, equality, and widening.
- `ListOps`: the container operations.
  - Insert, Erase, push and pop at both ends, Swap, move, Clear, Splice and the three `Insert_many*` helpers.
  - The constructors `List()`, `List(n)` and `List(items)`.
  - Every structural edit goes through one of two link-surgery functions. `Relink` inserts a chain of fresh nodes before a position. `Unlink` detaches one node. Each comes with a lemma that it keeps `Valid` and edits `Order` and `Elements` exactly as a sequence edit.
- `ListAlgorithms`: Reverse, Unique, Merge, Sort and the copy constructor.
  - Reverse swaps `next` and `prev` on every node in a loop, then exchanges `head` and `tail`.
  - Unique walks the list with two iterators and erases a node equal to its predecessor.
  - Merge walks the list with one cursor and moves the head of `other` in front of the cursor unless the cursor's value is strictly smaller. It then splices what remains of `other` at the end.
  - Sort is a recursive merge sort. It copies the values into two halves split at `size / 2`, sorts each half, and merges them with the same rule.
- `Queues`: `s21::Queue`, with `Push` as `Push_back` and `Pop` as `Pop_front`. It has FIFO contracts over the list's value sequence.
- `ListExamples`: two of the list's worked examples, replayed on the model.

**Sources and assumptions.** The node layout, both iterator classes, `End`/`Cend`/`Empty` and the fields follow the header `src/list/s21_list.h`. The member bodies live in `s21_list.tpp`, which is not part of this model. The other operations follow the behaviour the tests check. The list tests compare against `std::list`, and the queue tests check literal values. Three algorithms rest on modelling assumptions:
- Merge is modelled with the rule that, on equal heads, the node of `other` goes first.
- Sort is modelled as a copying merge sort split at `size / 2`.
- Unique erases a successor equal to its node.

## Model

| member | source | states |
|---|---|---|
| `ListNode.WalkFollowsRepr` | src/list/s21_list.h:12-19 | A node graph whose links are consistent with a chain of distinct nodes determines that chain: walking `next` from `head` finds exactly it. The abstract content is therefore a function of the links. |
| `ListNode.EmptyIffNullEnds` | src/list/s21_list.h:156 | In a well-formed list `head` is null exactly when the size is 0, and so is `tail`, so the two halves of the `Empty()` test agree. The size counts the values. |
| `ListNode.Begin` | src/tests/tests_s21_list.cpp:122-140 | `Begin()` stands at position 0. It equals `End()` exactly when the list is empty. |
| `ListNode.Cbegin` | src/list/s21_list.h:152 | The read-only `Cbegin()` stands at position 0. It equals `Cend()` exactly when the list is empty. |
| `ListNode.End` | src/list/s21_list.h:153 | `End()` is the null position. It is a valid iterator into every list and stands at position `size`, one past the last value. |
| `ListNode.Cend` | src/list/s21_list.h:154 | `Cend()` is the read-only null position. In every list it stands at position `size`, one past the last value. |
| `ListNode.Widen` | src/list/s21_list.h:91-92 | A mutable iterator built from a read-only one designates the same node. `Cend()` widens to `End()` and nothing else does. |
| `ListNode.Deref` | src/list/s21_list.h:93-96 | Dereferencing `End()` is a `NullIterator` error, and only `End()` gives one. Any other valid iterator yields the value at its position. |
| `ListNode.CDeref` | src/list/s21_list.h:43-46 | The same as `Deref`, for read-only iterators. |
| `ListNode.Increment` | src/list/s21_list.h:101-104 | `++it` moves one position towards the back. From the last node it reaches `End()`, and `End()` stays `End()`. |
| `ListNode.Decrement` | src/list/s21_list.h:110-113 | `--it` moves one position towards the front. From the first node it gives `End()`, and `End()` stays `End()`, so `--End()` never reaches the tail. |
| `ListNode.PostIncrement` | src/list/s21_list.h:105-109 | `it++` returns the prior iterator and moves the iterator one position towards the back. |
| `ListNode.PostDecrement` | src/list/s21_list.h:114-118 | `it--` returns the prior iterator and moves the iterator one position towards the front, or to `End()` from the first node. |
| `ListNode.CIncrement` | src/list/s21_list.h:51-54 | `++cit` on a read-only iterator behaves as `++it`. |
| `ListNode.CDecrement` | src/list/s21_list.h:60-63 | `--cit` on a read-only iterator behaves as `--it`. |
| `ListNode.CPostIncrement` | src/list/s21_list.h:55-59 | `cit++` returns the prior read-only iterator and moves one position towards the back. From `Cend()` it stays at `Cend()`. |
| `ListNode.CPostDecrement` | src/list/s21_list.h:64-68 | `cit--` returns the prior read-only iterator and moves one position towards the front. From the first node or from `Cend()` it goes to `Cend()`. |
| `ListNode.Equal` | src/list/s21_list.h:119-124 | `it == other` holds for two valid iterators of one list exactly when they stand at the same position. `!=` is its negation. |
| `ListNode.CEqual` | src/list/s21_list.h:69-74 | The same as `Equal`, for read-only iterators. |
| `ListOps.RelinkFacts` | src/list/s21_list.h:161 | Linking fresh nodes before a position keeps the list valid and leaves existing nodes' values alone. The node chain and the value sequence get the new nodes and values inserted at that position. |
| `ListOps.UnlinkFacts` | src/list/s21_list.h:162 | Detaching a node of the chain keeps the list valid. It removes exactly that node from the chain, and exactly its value from the value sequence. |
| `ListOps.New` | src/tests/tests_s21_list.cpp:24-30 | `List()` is valid and holds no values. |
| `ListOps.IsEmpty` | src/list/s21_list.h:156 | `Empty()`, computed as in the source from `size_` and `head_`, holds iff the list holds no values. |
| `ListOps.Size` | src/list/s21_list.h:157 | `Size()` is the number of values. |
| `ListOps.Front` | src/tests/tests_s21_list.cpp:111-120 | `Front()` is the first value. On an empty list it is an `EmptyContainer` error. |
| `ListOps.Back` | src/list/s21_list.h:149 | `Back()` is the last value. On an empty list it is an `EmptyContainer` error. |
| `ListOps.Clear` | src/tests/tests_s21_list.cpp:154-165 | After `Clear()` the list is valid and empty. |
| `ListOps.Swap` | src/tests/tests_s21_list.cpp:191-205 | The two lists exchange their entire value sequences, including when one is empty. Validity is kept. |
| `ListOps.Moved` | src/tests/tests_s21_list.cpp:80-109 | Move construction and move assignment give the destination exactly the source's values, discarding its own. The source is left valid and `Empty()`. Every iterator into the source stays valid in the destination and designates the same value. |
| `ListOps.Insert` | src/tests/tests_s21_list.cpp:167-189 | `Insert(pos, v)` puts `v` immediately before `pos` (`End()` appends) and grows the list by one. Other nodes keep their values. The returned iterator stands where `pos` stood and dereferences to `v`. `pos` moves one place back. |
| `ListOps.Erase` | src/tests/tests_s21_list.cpp:633-656 | `Erase(End())` is a `NullIterator` error, and only `End()` gives one. Otherwise the list stays valid and loses exactly the value at `pos`. |
| `ListOps.PushBack` | src/tests/tests_s21_list.cpp:658-664 | `Push_back(v)` appends `v`. |
| `ListOps.PushFront` | src/tests/tests_s21_list.cpp:687-701 | `Push_front(v)` prepends `v`. |
| `ListOps.PopFront` | src/tests/tests_s21_list.cpp:703-722 | `Pop_front()` removes the first value. It is an `EmptyContainer` error exactly when the list is empty. |
| `ListOps.PopBack` | src/tests/tests_s21_list.cpp:666-685 | `Pop_back()` removes the last value. It is an `EmptyContainer` error exactly when the list is empty. |
| `ListOps.EraseKeepsOtherIterators` | src/list/s21_list.h:162 | Erasing a node leaves every iterator to another node valid. Each still dereferences to the same value, and it moves one place forward when it stood behind the erased node. |
| `ListOps.InsertKeepsIterators` | src/list/s21_list.h:161 | Inserting leaves every iterator valid. Each still dereferences to the same value, and it moves one place back when it stood at or behind `pos`. |
| `ListOps.SpliceKeepsIterators` | src/list/s21_list.h:169 | Splicing leaves every iterator of the destination valid. Each still dereferences to the same value, and it moves back by the spliced length when it stood at or behind `pos`. |
| `ListOps.Splice` | src/tests/tests_s21_list.cpp:226-254 | `Splice(pos, other)` gives the values before `pos`, then all of `other` in order, then the values from `pos` on. `other` ends valid and empty. An empty `other` leaves the list as it was. |
| `ListOps.Filled` | src/tests/tests_s21_list.cpp:32-47 | `List(n)` holds `n` zeros. |
| `ListOps.FromSeq` | src/tests/tests_s21_list.cpp:49-61 | `List(items)` holds the items in the given order. |
| `ListOps.InsertManyBack` | src/tests/tests_s21_list.cpp:972-985 | `Insert_many_back(args...)` appends the arguments in argument order. |
| `ListOps.InsertManyFront` | src/tests/tests_s21_list.cpp:987-999 | `Insert_many_front(args...)` pushes each argument at the front in turn, so the arguments end up reversed in front of the old values. |
| `ListOps.InsertMany` | src/tests/tests_s21_list.cpp:1001-1010 | `Insert_many(pos, args...)` places the arguments in order immediately before `pos`. The returned iterator is `pos`, now standing after them. |
| `ListAlgorithms.Reverse` | src/tests/tests_s21_list.cpp:256-270 | `Reverse()` keeps the list valid and the nodes' values. The node chain, and with it the value sequence, is reversed. |
| `ListAlgorithms.ReverseTwice` | src/tests/tests_s21_list.cpp:760-768 | Reversing keeps the multiset of values. Reversing a second time restores the original order. |
| `ListAlgorithms.Unique` | src/tests/tests_s21_list.cpp:272-290 | `Unique()` yields `UniqueSeq` of the old values: no two neighbours are equal, and the same set of values is present. |
| `ListAlgorithms.Merge` | src/tests/tests_s21_list.cpp:207-224 | `Merge(other)` leaves `other` empty and holds a greedy interleaving of both value sequences, with equal heads taken from `other` first. The values are permuted, not lost. On sorted inputs the result is sorted and equals `std::list::merge`. With no value shared, it equals the rule of libstdc++'s `std::list::merge` for any inputs. Merging a list with itself changes nothing. Otherwise every iterator into the list stays valid and designates the same value. |
| `ListAlgorithms.MergeOfRuns` | src/tests/tests_s21_list.cpp:809-873 | The merge rule permutes its inputs and is greedy. For sorted runs it gives the same sequence as `std::list::merge`. For runs that share no value it gives the same sequence as the rule of libstdc++'s `std::list::merge`. |
| `ListAlgorithms.MergeOfSortedHalves` | src/tests/tests_s21_list.cpp:780-788 | Merging the sorted halves of a sequence yields exactly its sorted permutation `SortSeq`. |
| `ListAlgorithms.Sort` | src/tests/tests_s21_list.cpp:292-320 | `Sort()` yields a non-decreasing permutation of the values. A sorted permutation is unique (`SortedPermutationUnique`), so the result is the same as `std::list::sort` gives, and sorted, empty and single-value lists are unchanged. |
| `ListAlgorithms.Copy` | src/tests/tests_s21_list.cpp:63-78 | The copy constructor builds a new valid list holding the same values in the same order. |
| `Sequences.ReversedPermutes` | src/list/s21_list.h:170 | Reversing permutes the values: none is lost or duplicated. |
| `Sequences.MergeSeq` | src/list/s21_list.h:168 | The two-cursor merge, with either tie rule, keeps every value of both runs: its length is the sum and its multiset the union. |
| `Sequences.MergeSeqIsGreedy` | src/list/s21_list.h:168 | The two-cursor merge is a greedy interleaving: every emitted value is the smaller of the two heads. |
| `Sequences.GreedyMergePermutes` | src/tests/tests_s21_list.cpp:737-743 | Any greedy interleaving holds every value of both runs, so merging two lists adds their sizes. |
| `Sequences.GreedyMergeSorted` | src/tests/tests_s21_list.cpp:809-830 | A greedy interleaving of two sorted runs is sorted. |
| `Sequences.GreedyMergeOfSortedRuns` | src/tests/tests_s21_list.cpp:207-215 | For sorted runs every greedy interleaving equals the merge under either tie rule, so the tie rule is unobservable in the values. |
| `Sequences.GreedyMergeWithoutTies` | src/tests/tests_s21_list.cpp:831-840 | For runs with no common value, sorted or not, every greedy interleaving equals the rule of libstdc++'s `std::list::merge`. |
| `Sequences.SortedPermutationUnique` | src/tests/tests_s21_list.cpp:292-305 | Two sorted sequences with the same multiset are equal, so a sorted permutation is unique. |
| `Sequences.SortSeq` | src/tests/tests_s21_list.cpp:780-788 | The reference sort yields a non-decreasing permutation of its input. |
| `Sequences.UniqueSeq` | src/tests/tests_s21_list.cpp:770-778 | Deduplication keeps the first and last values and never grows the sequence. The result has no two equal neighbours. |
| `Sequences.UniqueSeqIsRunHeads` | src/tests/tests_s21_list.cpp:272-278 | Deduplication keeps exactly the first value of every run of equal neighbours. |
| `Sequences.UniqueSeqKeepsValues` | src/tests/tests_s21_list.cpp:284-286 | Deduplication keeps the set of values. |
| `Sequences.UniqueSeqFixesCollapsed` | src/tests/tests_s21_list.cpp:280-282 | A sequence without equal neighbours is unchanged by deduplication. |
| `Sequences.UniqueSeqIdempotent` | src/tests/tests_s21_list.cpp:272-290 | Deduplicating twice is the same as deduplicating once. |
| `ListExamples.UniqueSeqExample` | src/tests/tests_s21_list.cpp:770-778 | `{1, 2, 2, 3, 3, 2, 1, 1, 2}` deduplicates to `{1, 2, 3, 2, 1, 2}`. |
| `ListExamples.UniqueExample` | src/tests/tests_s21_list.cpp:771-777 | `Unique()` on a list holding `{1, 2, 2, 3, 3, 2, 1, 1, 2}` leaves six values, front 1 and back 2. |
| `ListExamples.ReverseExample` | src/tests/tests_s21_list.cpp:760-768 | `Reverse()` on `{1, 3, 7, 4}` gives `{4, 7, 3, 1}`. |
| `Queues.New` | src/tests/test_s21_queue.cpp:8-12 | `Queue()` is empty. |
| `Queues.FromSeq` | src/tests/test_s21_queue.cpp:14-19 | `Queue(items)` holds the items with the first item at the front. |
| `Queues.Front` | src/queue/s21_queue.h:28 | `Front()` is the oldest value. On an empty queue it is an `EmptyContainer` error. |
| `Queues.Back` | src/queue/s21_queue.h:29 | `Back()` is the newest value. On an empty queue it is an `EmptyContainer` error. |
| `Queues.IsEmpty` | src/queue/s21_queue.h:31 | `Empty()` holds iff the queue holds no values. |
| `Queues.Size` | src/queue/s21_queue.h:32 | `Size()` is the number of queued values. |
| `Queues.Push` | src/queue/s21_queue.h:34 | `Push(v)` adds `v` at the back. |
| `Queues.Pop` | src/queue/s21_queue.h:35 | `Pop()` removes the front value. It is an `EmptyContainer` error exactly when the queue is empty. |
| `Queues.Swap` | src/queue/s21_queue.h:36 | Two queues exchange their entire contents. |
| `Queues.InsertManyBack` | src/queue/s21_queue.h:38-41 | `Insert_many_back(args...)` adds the arguments at the back in argument order. |
| `Queues.Moved` | src/tests/test_s21_queue.cpp:30-49 | Move construction and move assignment give the destination the source's values and leave the source empty. |
| `Queues.Copy` | src/tests/test_s21_queue.cpp:21-28 | A copy holds the same values, so it has the same size, front and back. |
| `Queues.PushAll` | src/tests/test_s21_queue.cpp:71-79 | Pushing values one by one appends them in order. |
| `Queues.TakeFront` | src/tests/test_s21_queue.cpp:51-59 | Reading `Front()` then `Pop()`ping splits the queue into its oldest value and the rest. |
| `Queues.Drain` | src/tests/test_s21_queue.cpp:71-88 | Reading the front and popping until the queue is empty yields the contents in order, and leaves the queue empty. |
| `Queues.PushPopCommute` | src/queue/s21_queue.h:34-35 | On a non-empty queue, push-then-pop and pop-then-push give the same contents: the value pushed is not the one that leaves. |
| `Queues.PushIntoEmpty` | src/tests/test_s21_queue.cpp:61-69 | A value pushed into an empty queue is both its front and its back, and popping it empties the queue again. |
| `Queues.PushThenDrain` | src/tests/test_s21_queue.cpp:105-124 | Values pushed into an empty queue leave it in the order they were pushed. |
| `Queues.RangeQueue` | src/tests/test_s21_queue.cpp:141-149 | After pushing `0 .. n-1` the size is `n`, the front is 0 and the back is `n - 1`. |
| `Queues.LargeData` | src/tests/test_s21_queue.cpp:141-157 | 10000 pushes of `0 .. 9999` give size 10000, front 0 and back 9999. Popping them all returns `0 .. 9999` in order and leaves the queue empty. |

## Left out

- `Max_size()` is not modelled, because it depends on `std::numeric_limits`.
- `size_type` is a `nat`. The 64-bit width of `size_t` is not modelled, because no reachable size approaches it.
- Element types other than `int`, including the `List<double>` instantiations. Only ordering and equality of elements are used, and floating point is out of scope.
- `operator->`: it returns the address of the node's value. Its one observable difference from `*it`, the pointer identity checked in the tests, has no counterpart in a value model.
- Writing through a mutable iterator (`*it = x`).
- Memory management: `new`/`delete`, the destructor, and the release of nodes by Erase, the pops and Clear. Erased nodes stay in the arena unlinked. `Clear` returns a fresh empty list.
- Node identity on Splice and Merge:
  - Splice and Merge are expected to transfer `other`'s nodes into the destination;
  - the model copies the values of `other` into fresh arena slots of the destination;
  - values, order and the destination's own iterators behave as in the source, but iterators into `other` are not carried across.
  - The move constructor and move assignment keep node identity: the destination is the source's own arena, so iterators into the source stay valid in it.
- `ListAlgorithms.Merge`: merging a list into itself is modelled as a no-op, as tests_s21_list.cpp:221-223 expect the size to stay unchanged. A value model cannot see identity, so the caller says so through the `aliased` flag.
- `ListAlgorithms.Merge`: the tie rule, that `other`'s node goes first on equal heads, is assumed. It is a modelling assumption, and the list tests never exercise a tie between the two operands. The rule's effect on the values is confined to inputs that are unsorted and share a value. On those inputs only the multiset and `IsGreedyMerge` clauses are independent of it.
- `ListOps.InsertMany`: the header declares an iterator result, and the body that chooses it is not part of this model. The model returns `pos`, which then stands after the inserted values. No test reads the result.
- Sort's allocation strategy is not modelled. Sort is modelled as copying merge sort, and its contract fixes only the resulting order.
- The deep-copy check that pushing onto the source later leaves the copy unchanged holds by construction: lists are values in the model, so it needs no lemma.
- Time and space complexity (the O(1) claims).
- Foreign or stale iterators passed to Insert, Erase, Splice or InsertMany are undefined behaviour in the source. They are excluded by the `ValidIter` precondition.
- `Queue`'s copy constructor and default move operations are modelled through `Copy` and `Moved`. The queue has no copy assignment.

=== FILE: list_algorithms.dfy ===
/** The list-specific algorithms of `s21::List<int>`: Reverse, Unique, Merge,
    Sort, and the deep copy. Each is modelled as a walk over the chain with
    iterators that edits it through the verified container operations (or,
    for Reverse, through the links themselves), and its contract relates the
    resulting values to the reference definitions of module `Sequences`.
    Three choices are modelling assumptions: Merge takes the node of `other`
    first on equal heads, Sort is a copying merge sort split at half the
    size, and Unique erases a successor equal to its node.
 */
module ListAlgorithms {
  import opened Sequences
  import opened ListNode
  import opened ListOps

  // ---------------------------------------------------------------------------
  // Reverse
  // ---------------------------------------------------------------------------

  lemma ReversedDistinct(o: seq<int>)
    requires Distinct(o)
    ensures Distinct(Reversed(o))
  {
    var n, ro := |o|, Reversed(o);
    forall a, b | 0 <= a < b < n ensures ro[a] != ro[b] {
      assert ro[a] == o[n - 1 - a] && ro[b] == o[n - 1 - b];
    }
  }

  /** Predecessor links of a chain, read as successor links, chain it backwards. */
  lemma PrevLinksReversed(prev: seq<int>, o: seq<int>, next': seq<int>)
    requires PrevLinks(prev, o) && |next'| == |prev|
    requires forall k {:trigger next'[o[k]]} | 0 <= k < |o| :: next'[o[k]] == prev[o[k]]
    ensures NextLinks(next', Reversed(o))
  {
    var n, ro := |o|, Reversed(o);
    forall k | 0 <= k < n ensures 0 <= ro[k] < |next'| && next'[ro[k]] == Succ(ro, k) {
      var j := n - 1 - k;
      assert ro[k] == o[j];
      assert next'[o[j]] == prev[o[j]] == Pred(o, j);
      if k + 1 < n {
        assert ro[k + 1] == o[j - 1];
      }
    }
  }

  /** Successor links of a chain, read as predecessor links, chain it backwards. */
  lemma NextLinksReversed(next: seq<int>, o: seq<int>, prev': seq<int>)
    requires NextLinks(next, o) && |prev'| == |next|
    requires forall k {:trigger prev'[o[k]]} | 0 <= k < |o| :: prev'[o[k]] == next[o[k]]
    ensures PrevLinks(prev', Reversed(o))
  {
    var n, ro := |o|, Reversed(o);
    forall k | 0 <= k < n ensures 0 <= ro[k] < |prev'| && prev'[ro[k]] == Pred(ro, k) {
      var j := n - 1 - k;
      assert ro[k] == o[j];
      assert prev'[o[j]] == next[o[j]] == Succ(o, j);
      if 0 < k {
        assert ro[k - 1] == o[j + 1];
      }
    }
  }

  /** Swapping the two link arrays of every chained node, and head with tail,
      yields the same nodes in the opposite order. */
  lemma ReversedRepr(l: List, next: seq<int>, prev: seq<int>)
    requires Valid(l) && |next| == |l.next| && |prev| == |l.prev|
    requires forall k {:trigger next[Order(l)[k]]} | 0 <= k < |Order(l)| :: next[Order(l)[k]] == l.prev[Order(l)[k]]
    requires forall k {:trigger prev[Order(l)[k]]} | 0 <= k < |Order(l)| :: prev[Order(l)[k]] == l.next[Order(l)[k]]
    ensures Repr(List(l.val, next, prev, l.tail, l.head, l.size), Reversed(Order(l)))
  {
    var o := Order(l);
    ReversedDistinct(o);
    PrevLinksReversed(l.prev, o, next);
    NextLinksReversed(l.next, o, prev);
  }

  lemma ValuesReversed(val: seq<int>, o: seq<int>)
    ensures Values(val, Reversed(o)) == Reversed(Values(val, o))
  {
  }

  /** The walk of `Reverse` over the link arrays: starting at `head`, every
      node of chain `o` gets its two links exchanged. */
  method SwapLinks(next: seq<int>, prev: seq<int>, head: int, ghost o: seq<int>)
    returns (next': seq<int>, prev': seq<int>)
    requires NextLinks(next, o) && |prev| == |next| && Distinct(o)
    requires head == if o == [] then Null else o[0]
    ensures |next'| == |next| && |prev'| == |prev|
    ensures forall k {:trigger next'[o[k]]} | 0 <= k < |o| :: next'[o[k]] == prev[o[k]]
    ensures forall k {:trigger prev'[o[k]]} | 0 <= k < |o| :: prev'[o[k]] == next[o[k]]
  {
    next', prev' := next, prev;
    var p, k := head, 0;
    while p != Null
      invariant 0 <= k <= |o|
      invariant p == if k < |o| then o[k] else Null
      invariant |next'| == |next| && |prev'| == |prev|
      invariant forall j {:trigger next'[o[j]]} | 0 <= j < k :: next'[o[j]] == prev[o[j]]
      invariant forall j {:trigger prev'[o[j]]} | 0 <= j < k :: prev'[o[j]] == next[o[j]]
      invariant forall j {:trigger next'[o[j]]} | k <= j < |o| :: next'[o[j]] == next[o[j]]
      invariant forall j {:trigger prev'[o[j]]} | k <= j < |o| :: prev'[o[j]] == prev[o[j]]
      decreases |o| - k
    {
      assert next[o[k]] == Succ(o, k);
      var q := next'[p];
      next' := next'[p := prev'[p]];
      prev' := prev'[p := q];
      p, k := q, k + 1;
    }
  }

  /** `Reverse()`: exchanges the successor and predecessor link of every node,
      then head and tail. No node is allocated or released. */
  method Reverse(l: List) returns (r: List)
    requires Valid(l)
    ensures Valid(r) && r.val == l.val
    ensures Order(r) == Reversed(Order(l))
    ensures Elements(r) == Reversed(Elements(l))
  {
    var next, prev := SwapLinks(l.next, l.prev, l.head, Order(l));
    ReversedRepr(l, next, prev);
    r := List(l.val, next, prev, l.tail, l.head, l.size);
    WalkFollowsRepr(r, Reversed(Order(l)));
    ValuesReversed(l.val, Order(l));
  }

  /** Reversing twice restores the values and keeps them as a multiset in
      between. */
  method ReverseTwice(l: List) returns (once: List, twice: List)
    requires Valid(l)
    ensures Valid(once) && multiset(Elements(once)) == multiset(Elements(l))
    ensures Valid(twice) && Elements(twice) == Elements(l)
  {
    once := Reverse(l);
    twice := Reverse(once);
    ReversedInvolution(Elements(l));
    ReversedPermutes(Elements(l));
  }

  // ---------------------------------------------------------------------------
  // Unique
  // ---------------------------------------------------------------------------

  /** One step of the scan when the successor repeats the current value:
      erasing the successor leaves the run heads still to come unchanged. */
  lemma UniqueDropsRepeat(E: seq<int>, i: nat)
    requires i + 1 < |E| && E[i] == E[i + 1]
    ensures (E[..i + 1] + E[i + 2..])[..i] == E[..i]
    ensures RunHeads((E[..i + 1] + E[i + 2..])[i..]) == RunHeads(E[i..])
  {
    var T := E[i..];
    assert (E[..i + 1] + E[i + 2..])[i..] == T[1..];
  }

  /** One step of the scan when the successor differs: the current value is a
      run head and the scan moves on. */
  lemma UniqueKeepsHead(E: seq<int>, i: nat)
    requires i + 1 < |E| && E[i] != E[i + 1]
    ensures E[..i] + RunHeads(E[i..]) == E[..i + 1] + RunHeads(E[i + 1..])
  {
    assert E[i..][1..] == E[i + 1..];
    assert E[..i + 1] == E[..i] + [E[i]];
  }

  /** The scan of `Unique` stands at `it`: the values before it are final, and
      the run heads of what follows complete the run heads of the original
      values `A`. */
  predicate UniqueAt(r: List, it: Iter, A: seq<int>) {
    && Valid(r) && ValidIter(r, it)
    && Position(r, it) < |Elements(r)|
    && RunHeads(A) == Elements(r)[..Position(r, it)] + RunHeads(Elements(r)[Position(r, it)..])
  }

  /** The loop invariant of `Unique`: the scan stands at `it` and `nx` is its
      successor. */
  predicate UniqueInv(r: List, it: Iter, nx: Iter, A: seq<int>) {
    && UniqueAt(r, it, A) && ValidIter(r, nx)
    && Position(r, nx) == Position(r, it) + 1
  }

  /** Erases the successor `nx`, which repeats the value at `it`. */
  method UniqueDrop(r: List, it: Iter, nx: Iter, ghost A: seq<int>) returns (r': List)
    requires UniqueInv(r, it, nx, A) && nx != End()
    requires Deref(r, it) == Deref(r, nx)
    ensures UniqueAt(r', it, A)
    ensures |Elements(r')| - Position(r', it) < |Elements(r)| - Position(r, it)
  {
    IterEqualityIsPosition(r, nx, it);
    EraseKeepsOtherIterators(r, nx, it);
    UniqueDropsRepeat(Elements(r), Position(r, it));
    r' := Erase(r, nx).value;
  }

  /** The successor `nx` holds a new value: the scan moves on to it. */
  lemma UniqueAdvance(r: List, it: Iter, nx: Iter, A: seq<int>)
    requires UniqueInv(r, it, nx, A) && nx != End()
    requires Deref(r, it) != Deref(r, nx)
    ensures UniqueAt(r, nx, A)
  {
    UniqueKeepsHead(Elements(r), Position(r, it));
  }

  /** The successor of the scan's position, End() when it stands at the back. */
  method UniqueNext(r: List, it: Iter, ghost A: seq<int>) returns (nx: Iter)
    requires UniqueAt(r, it, A)
    ensures UniqueInv(r, it, nx, A)
    ensures nx == End() <==> Position(r, it) + 1 == |Elements(r)|
  {
    nx := Increment(r, it);
    IterEqualityIsPosition(r, nx, End());
  }

  /** One step of the scan: erase a repeating successor, or move on. */
  method UniqueStep(r: List, it: Iter, nx: Iter, ghost A: seq<int>) returns (r': List, it': Iter, nx': Iter)
    requires UniqueInv(r, it, nx, A) && nx != End()
    ensures UniqueInv(r', it', nx', A)
    ensures |Elements(r')| - Position(r', it') < |Elements(r)| - Position(r, it)
  {
    if Deref(r, it).value == Deref(r, nx).value {
      r' := UniqueDrop(r, it, nx, A);
      it' := it;
    } else {
      UniqueAdvance(r, it, nx, A);
      r', it' := r, nx;
    }
    nx' := UniqueNext(r', it', A);
  }

  /** `Unique()`: walks the list and, whenever a node's successor holds the
      same value, erases the successor; the first node of every run of equal
      adjacent values survives. */
  method Unique(l: List) returns (r: List)
    requires Valid(l)
    ensures Valid(r)
    ensures Elements(r) == UniqueSeq(Elements(l))
    ensures NoAdjacentDuplicates(Elements(r))
    ensures forall x :: x in Elements(r) <==> x in Elements(l)
  {
    ghost var A := Elements(l);
    UniqueSeqIsRunHeads(A);
    UniqueSeqKeepsValues(A);
    r := l;
    if IsEmpty(r) {
      return;
    }
    var it := Begin(r);
    assert Elements(r)[0..] == A;
    var nx := UniqueNext(r, it, A);
    while nx != End()
      invariant UniqueInv(r, it, nx, A)
      decreases |Elements(r)| - Position(r, it)
    {
      r, it, nx := UniqueStep(r, it, nx, A);
    }
    RunHeadsAtLast(Elements(r), Position(r, it), A);
  }

  /** The scan ends with `it` on the last node: the values are the run heads. */
  lemma RunHeadsAtLast(E: seq<int>, i: nat, A: seq<int>)
    requires i + 1 == |E| && RunHeads(A) == E[..i] + RunHeads(E[i..])
    ensures RunHeads(A) == E
  {
    assert E[i..] == [E[i]];
    PrefixSnoc(E, i);
  }

  // ---------------------------------------------------------------------------
  // Merge
  // ---------------------------------------------------------------------------

  /** The cursor into the list holds the strictly smaller value: it advances. */
  lemma MergeTakesThis(E: seq<int>, i: nat, S: seq<int>)
    requires i < |E| && S != [] && E[i] < S[0]
    ensures E[..i] + MergeSeq(E[i..], S, true) == E[..i + 1] + MergeSeq(E[i + 1..], S, true)
  {
    MergeThisHead(E[i..], S);
    SuffixTail(E, i);
    PrefixSnoc(E, i);
    ConcatAssoc(E[..i], [E[i]], MergeSeq(E[i + 1..], S, true));
  }

  lemma MergeThisHead(T: seq<int>, S: seq<int>)
    requires T != [] && S != [] && T[0] < S[0]
    ensures MergeSeq(T, S, true) == [T[0]] + MergeSeq(T[1..], S, true)
  {
  }

  lemma MergeOtherHead(T: seq<int>, S: seq<int>)
    requires T != [] && S != [] && S[0] <= T[0]
    ensures MergeSeq(T, S, true) == [S[0]] + MergeSeq(T, S[1..], true)
  {
  }

  /** The other list's head is not greater (ties included): it is moved in
      front of the cursor. */
  lemma MergeTakesOther(E: seq<int>, i: nat, S: seq<int>, E': seq<int>)
    requires i < |E| && S != [] && S[0] <= E[i]
    requires E' == E[..i] + [S[0]] + E[i..]
    ensures E[..i] + MergeSeq(E[i..], S, true) == E'[..i + 1] + MergeSeq(E'[i + 1..], S[1..], true)
  {
    MergeOtherHead(E[i..], S);
    InsertedSlices(E, i, S[0], E');
    ConcatAssoc(E[..i], [S[0]], MergeSeq(E[i..], S[1..], true));
  }


  /** What the tie rule of `Merge` means for its result: a permutation of both
      runs, and for sorted runs the one sorted interleaving, the same as with
      the rule of `std::list::merge`. */
  lemma {:induction false} MergeOfRuns(a: seq<int>, b: seq<int>)
    ensures multiset(MergeSeq(a, b, true)) == multiset(a) + multiset(b)
    ensures IsGreedyMerge(MergeSeq(a, b, true), a, b)
    ensures Sorted(a) && Sorted(b) ==>
      Sorted(MergeSeq(a, b, true)) && MergeSeq(a, b, true) == MergeSeq(a, b, false)
    ensures NoCommonValue(a, b) ==> MergeSeq(a, b, true) == MergeSeq(a, b, false)
  {
    MergeSeqIsGreedy(a, b, true);
    if Sorted(a) && Sorted(b) {
      GreedyMergeOfSortedRuns(MergeSeq(a, b, true), a, b);
    }
    if NoCommonValue(a, b) {
      GreedyMergeWithoutTies(MergeSeq(a, b, true), a, b);
    }
  }

  /** The loop invariant of `Merge`: the values before the list's cursor are
      final, and merging the rest of the list with what is left of `other`
      completes the merge of the original runs `A` and `B`. */
  predicate MergeInv(r: List, rest: List, it: Iter, A: seq<int>, B: seq<int>) {
    && Valid(r) && Valid(rest) && ValidIter(r, it)
    && Position(r, it) <= |Elements(r)|
    && Elements(r)[..Position(r, it)] + MergeSeq(Elements(r)[Position(r, it)..], Elements(rest), true)
       == MergeSeq(A, B, true)
  }

  /** One step of the two-cursor walk. */
  method MergeStep(r: List, rest: List, it: Iter, ghost A: seq<int>, ghost B: seq<int>)
    returns (r': List, rest': List, it': Iter)
    requires MergeInv(r, rest, it, A, B) && it != End() && !IsEmpty(rest)
    ensures MergeInv(r', rest', it', A, B)
    ensures KeepsIterators(r, r')
    ensures |Elements(r')| - Position(r', it') + |Elements(rest')|
      < |Elements(r)| - Position(r, it) + |Elements(rest)|
  {
    var E, i, S := Elements(r), Position(r, it), Elements(rest);
    var x, y := Deref(r, it).value, Front(rest).value;
    if x < y {
      MergeTakesThis(E, i, S);
      r', rest', it' := r, rest, Increment(r, it);
    } else {
      MergeTakesOther(E, i, S, E[..i] + [y] + E[i..]);
      r', rest', it' := Insert(r, it, y).0, PopFront(rest).value, it;
      forall x | ValidIter(r, x) ensures ValidIter(r', x) && Deref(r', x) == Deref(r, x) {
        InsertKeepsIterators(r, it, y, x);
      }
    }
  }

  /** After the walk: whatever is left of `other` goes to the back. */
  method MergeFinish(r: List, rest: List, it: Iter, ghost A: seq<int>, ghost B: seq<int>)
    returns (r': List, rest': List)
    requires MergeInv(r, rest, it, A, B) && (it == End() || IsEmpty(rest))
    ensures Valid(r') && Valid(rest') && Elements(rest') == []
    ensures Elements(r') == MergeSeq(A, B, true)
    ensures KeepsIterators(r, r')
  {
    IterEqualityIsPosition(r, it, End());
    EmptyIffNullEnds(r);
    MergeRemainder(Elements(r), Position(r, it), Elements(rest), MergeSeq(A, B, true));
    if !IsEmpty(rest) {
      var spliced := Splice(r, End(), rest);
      r', rest' := spliced.0, spliced.1;
      forall x | ValidIter(r, x) ensures ValidIter(r', x) && Deref(r', x) == Deref(r, x) {
        SpliceKeepsIterators(r, End(), rest, x);
      }
    } else {
      r', rest' := r, rest;
    }
  }

  /** Once either cursor is exhausted the merge is the list followed by the
      rest of `other`. */
  lemma MergeRemainder(E: seq<int>, i: nat, S: seq<int>, M: seq<int>)
    requires i <= |E| && (i == |E| || S == [])
    requires E[..i] + MergeSeq(E[i..], S, true) == M
    ensures E[..|E|] + S + E[|E|..] == M
    ensures S == [] ==> E == M
  {
    assert E[..|E|] == E && E[|E|..] == [];
    if i < |E| {
      assert E[..i] + E[i..] == E;
    }
  }

  /** `Merge(other)`: interleaves the nodes of `other` into the list. Two
      cursors walk the runs; the list's cursor advances while its value is
      strictly smaller than the head of `other`, otherwise that head moves in
      front of it (so on equal values the node of `other` comes first); what
      remains of `other` is spliced at the end. `other` is left empty.
      Merging a list into itself (`aliased`) changes nothing. */
  method Merge(l: List, other: List, aliased: bool) returns (r: List, rest: List)
    requires Valid(l) && Valid(other)
    requires aliased ==> other == l
    ensures aliased ==> r == l && rest == other
    ensures !aliased ==> Valid(r) && Valid(rest) && Elements(rest) == []
    ensures !aliased ==> Elements(r) == MergeSeq(Elements(l), Elements(other), true)
    ensures !aliased ==> KeepsIterators(l, r)
    ensures !aliased ==> multiset(Elements(r)) == multiset(Elements(l)) + multiset(Elements(other))
    ensures !aliased ==> IsGreedyMerge(Elements(r), Elements(l), Elements(other))
    ensures !aliased && Sorted(Elements(l)) && Sorted(Elements(other)) ==>
      Sorted(Elements(r)) && Elements(r) == MergeSeq(Elements(l), Elements(other), false)
    ensures !aliased && NoCommonValue(Elements(l), Elements(other)) ==>
      Elements(r) == MergeSeq(Elements(l), Elements(other), false)
  {
    r, rest := l, other;
    if aliased || IsEmpty(other) {
      return;
    }
    ghost var A, B := Elements(l), Elements(other);
    var it := Begin(r);
    assert Elements(r)[0..] == A;
    while it != End() && !IsEmpty(rest)
      invariant MergeInv(r, rest, it, A, B)
      invariant KeepsIterators(l, r)
      decreases |Elements(r)| - Position(r, it) + |Elements(rest)|
    {
      r, rest, it := MergeStep(r, rest, it, A, B);
    }
    r, rest := MergeFinish(r, rest, it, A, B);
    MergeOfRuns(A, B);
  }

  // ---------------------------------------------------------------------------
  // Sort
  // ---------------------------------------------------------------------------

  /** `Sort()`: merge sort. A list of fewer than two elements is already
      sorted; otherwise the values are copied into two lists split at half
      the size, each is sorted recursively, and the two runs are merged with
      the rule of `Merge`. */
  method Sort(l: List) returns (r: List)
    requires Valid(l)
    ensures Valid(r)
    ensures Sorted(Elements(r)) && multiset(Elements(r)) == multiset(Elements(l))
    decreases |Elements(l)|
  {
    var E := Elements(l);
    if Size(l) < 2 {
      r := l;
    } else {
      var h := Size(l) / 2;
      var left := Sort(FromSeq(E[..h]));
      var right := Sort(FromSeq(E[h..]));
      var emptied;
      r, emptied := Merge(left, right, false);
      MergeOfSortedHalves(E, h, Elements(left), Elements(right));
    }
  }

  /** Merging the sorted halves gives the sorted permutation of the whole. */
  lemma {:induction false} MergeOfSortedHalves(E: seq<int>, h: nat, L: seq<int>, R: seq<int>)
    requires h <= |E| && Sorted(L) && Sorted(R)
    requires multiset(L) == multiset(E[..h]) && multiset(R) == multiset(E[h..])
    ensures Sorted(MergeSeq(L, R, true)) && multiset(MergeSeq(L, R, true)) == multiset(E)
    ensures MergeSeq(L, R, true) == SortSeq(E)
  {
    assert E[..h] + E[h..] == E;
    MergeOfRuns(L, R);
    SortedPermutationUnique(MergeSeq(L, R, true), SortSeq(E));
  }

  // ---------------------------------------------------------------------------
  // Copy
  // ---------------------------------------------------------------------------

  /** The loop invariant of `Copy`: `r` holds the values of `l` before `it`. */
  predicate CopyInv(l: List, r: List, it: ConstIter) {
    && Valid(l) && Valid(r) && ValidIter(l, Widen(it))
    && Position(l, Widen(it)) <= |Elements(l)|
    && Elements(r) == Elements(l)[..Position(l, Widen(it))]
  }

  /** Appends the value at `it` and moves on. */
  method CopyStep(l: List, r: List, it: ConstIter) returns (r': List, it': ConstIter)
    requires CopyInv(l, r, it) && it != Cend()
    ensures CopyInv(l, r', it')
    ensures Position(l, Widen(it')) == Position(l, Widen(it)) + 1
  {
    var i := Position(l, Widen(it));
    var v := CDeref(l, it).value;
    PrefixSnoc(Elements(l), i);
    r' := PushBack(r, v);
    it' := CIncrement(l, it);
  }

  /** The copy constructor: walks the source with a const iterator and appends
      each value to a new list, so the copy shares no node with the source. */
  method Copy(l: List) returns (r: List)
    requires Valid(l)
    ensures Valid(r) && Elements(r) == Elements(l)
  {
    EmptyIffNullEnds(l);
    r := New();
    var it := Cbegin(l);
    while it != Cend()
      invariant CopyInv(l, r, it)
      decreases |Elements(l)| - Position(l, Widen(it))
    {
      r, it := CopyStep(l, r, it);
    }
    IterEqualityIsPosition(l, Widen(it), End());
  }
}

=== FILE: list_examples.dfy ===
/** Worked examples that accompany `s21::List<int>`, replayed on the model:
    for any list holding an example's values, the operation yields the
    example's exact result.
 */
module ListExamples {
  import opened Sequences
  import opened ListNode
  import opened ListOps
  import opened ListAlgorithms

  lemma UniqueSeqPrefix()
    ensures UniqueSeq([1, 2, 2, 3, 3]) == [1, 2, 3]
  {
    assert UniqueSeq([1]) == [1];
    assert [1, 2][..1] == [1];
    assert UniqueSeq([1, 2]) == [1, 2];
    assert [1, 2, 2][..2] == [1, 2];
    assert UniqueSeq([1, 2, 2]) == [1, 2];
    assert [1, 2, 2, 3][..3] == [1, 2, 2];
    assert UniqueSeq([1, 2, 2, 3]) == [1, 2, 3];
    assert [1, 2, 2, 3, 3][..4] == [1, 2, 2, 3];
  }

  lemma UniqueSeqExample()
    ensures UniqueSeq([1, 2, 2, 3, 3, 2, 1, 1, 2]) == [1, 2, 3, 2, 1, 2]
  {
    UniqueSeqPrefix();
    assert [1, 2, 2, 3, 3, 2][..5] == [1, 2, 2, 3, 3];
    assert UniqueSeq([1, 2, 2, 3, 3, 2]) == [1, 2, 3, 2];
    assert [1, 2, 2, 3, 3, 2, 1][..6] == [1, 2, 2, 3, 3, 2];
    assert UniqueSeq([1, 2, 2, 3, 3, 2, 1]) == [1, 2, 3, 2, 1];
    assert [1, 2, 2, 3, 3, 2, 1, 1][..7] == [1, 2, 2, 3, 3, 2, 1];
    assert UniqueSeq([1, 2, 2, 3, 3, 2, 1, 1]) == [1, 2, 3, 2, 1];
    assert [1, 2, 2, 3, 3, 2, 1, 1, 2][..8] == [1, 2, 2, 3, 3, 2, 1, 1];
  }

  /** `{1, 2, 2, 3, 3, 2, 1, 1, 2}` loses only the repeats that follow an
      equal value: six values remain, the first 1 and the last 2. */
  method UniqueExample(l: List) returns (r: List)
    requires Valid(l) && Elements(l) == [1, 2, 2, 3, 3, 2, 1, 1, 2]
    ensures Valid(r) && Elements(r) == [1, 2, 3, 2, 1, 2]
    ensures Size(r) == 6 && Front(r) == Ok(1) && Back(r) == Ok(2)
  {
    r := Unique(l);
    UniqueSeqExample();
  }

  lemma ReversedExample()
    ensures Reversed([1, 3, 7, 4]) == [4, 7, 3, 1]
  {
  }

  /** `{1, 3, 7, 4}` reversed is `{4, 7, 3, 1}`. */
  method ReverseExample(l: List) returns (r: List)
    requires Valid(l) && Elements(l) == [1, 3, 7, 4]
    ensures Valid(r) && Elements(r) == [4, 7, 3, 1]
  {
    r := Reverse(l);
    ReversedExample();
  }
}

=== FILE: list_node.dfy ===
/** The node graph of `s21::List<int>` and its iterators.

    Nodes live in an arena: node `p` has value `val[p]`, successor `next[p]`
    and predecessor `prev[p]`; `Null` (-1) plays the null pointer. The
    container fields `head`, `tail` and `size` are those of the source class.
    Slots of erased nodes stay in the arena unlinked.

    The abstract content of a list is the sequence of nodes met by following
    `next` from `head` for `size` steps (`Order`), and its values (`Elements`).
    `Valid` is the representation invariant: that walk visits `size` distinct
    nodes, `prev` mirrors `next`, `head`/`tail` are the first/last node and
    both are `Null` exactly when `size` is 0.
 */
module ListNode {
  import opened Sequences

  /** The null link: the end of a chain, and the node of the End() iterator. */
  const Null: int := -1

  /** The two kinds of `std::out_of_range` the container throws. */
  datatype Error =
    | EmptyContainer  // Front, Back, Pop_front, Pop_back on an empty list
    | NullIterator    // dereferencing or erasing the End() position

  datatype Result<T> = Ok(value: T) | Err(error: Error)

  datatype List = List(val: seq<int>, next: seq<int>, prev: seq<int>, head: int, tail: int, size: nat)

  /** `ListIterator`: the designated node, or `Null` for End(). */
  datatype Iter = Iter(node: int)

  /** `ListConstIterator`: same position, read-only access. */
  datatype ConstIter = ConstIter(node: int)

  /** The nodes met by following `next` from `p`, at most `k` of them. */
  function Walk(next: seq<int>, p: int, k: nat): seq<int>
    decreases k
  {
    if k == 0 || !(0 <= p < |next|) then [] else [p] + Walk(next, next[p], k - 1)
  }

  /** The chain of nodes the list holds, head first. */
  function Order(l: List): seq<int> {
    Walk(l.next, l.head, l.size)
  }

  /** The node after position `k` of chain `o`, `Null` after the last. */
  function Succ(o: seq<int>, k: int): int {
    if 0 <= k && k + 1 < |o| then o[k + 1] else Null
  }

  /** The node before position `k` of chain `o`, `Null` before the first. */
  function Pred(o: seq<int>, k: int): int {
    if 0 < k <= |o| then o[k - 1] else Null
  }

  predicate Distinct(o: seq<int>) {
    forall j, k | 0 <= j < k < |o| :: o[j] != o[k]
  }

  /** Every node of `o` is a slot of an arena of `n` nodes. */
  predicate InArena(o: seq<int>, n: nat) {
    forall k | 0 <= k < |o| :: 0 <= o[k] < n
  }

  /** `next` links every node of `o` to its successor in `o`. */
  predicate NextLinks(next: seq<int>, o: seq<int>) {
    && InArena(o, |next|)
    && forall k {:trigger next[o[k]]} | 0 <= k < |o| :: next[o[k]] == Succ(o, k)
  }

  /** `prev` links every node of `o` to its predecessor in `o`. */
  predicate PrevLinks(prev: seq<int>, o: seq<int>) {
    && InArena(o, |prev|)
    && forall k {:trigger prev[o[k]]} | 0 <= k < |o| :: prev[o[k]] == Pred(o, k)
  }

  /** `o` is the node chain of `l`, with all links consistent. */
  predicate Repr(l: List, o: seq<int>) {
    && |l.next| == |l.val|
    && |l.prev| == |l.val|
    && |o| == l.size
    && Distinct(o)
    && InArena(o, |l.val|)
    && l.head == (if o == [] then Null else o[0])
    && l.tail == (if o == [] then Null else o[|o| - 1])
    && NextLinks(l.next, o)
    && PrevLinks(l.prev, o)
  }

  /** The representation invariant of the container. */
  predicate Valid(l: List) {
    Repr(l, Order(l))
  }

  /** The values held by the nodes of chain `o`. */
  function Values(val: seq<int>, o: seq<int>): seq<int> {
    seq(|o|, k requires 0 <= k < |o| => if 0 <= o[k] < |val| then val[o[k]] else 0)
  }

  /** The values of the list, front to back. */
  function Elements(l: List): seq<int> {
    Values(l.val, Order(l))
  }

  lemma {:induction false} WalkSuffix(next: seq<int>, o: seq<int>, k: nat)
    requires NextLinks(next, o) && k <= |o|
    ensures Walk(next, if k < |o| then o[k] else Null, |o| - k) == o[k..]
    decreases |o| - k
  {
    if k < |o| {
      var p := o[k];
      assert 0 <= p < |next| && next[p] == Succ(o, k);
      assert Walk(next, p, |o| - k) == [p] + Walk(next, next[p], |o| - k - 1);
      WalkSuffix(next, o, k + 1);
      assert o[k..] == [o[k]] + o[k + 1..];
    }
  }

  /** A consistent chain is exactly what the walk from `head` finds, so `Repr`
      determines the abstract content. */
  lemma WalkFollowsRepr(l: List, o: seq<int>)
    requires Repr(l, o)
    ensures Order(l) == o && Valid(l)
  {
    WalkSuffix(l.next, o, 0);
  }

  /** Empty() in the source: `size_ == 0 && head_ == nullptr`. On a valid list
      the null head, the null tail and the zero count go together. */
  lemma EmptyIffNullEnds(l: List)
    requires Valid(l)
    ensures l.head == Null <==> l.size == 0
    ensures l.tail == Null <==> l.size == 0
    ensures |Elements(l)| == l.size
  {
  }

  lemma LinksInRange(l: List)
    requires Valid(l)
    ensures l.head == Null || 0 <= l.head < |l.val|
    ensures l.tail == Null || 0 <= l.tail < |l.val|
    ensures forall p | p in Order(l) ::
      && 0 <= p < |l.val|
      && (l.next[p] == Null || 0 <= l.next[p] < |l.val|)
      && (l.prev[p] == Null || 0 <= l.prev[p] < |l.val|)
  {
    var o := Order(l);
    forall p | p in o
      ensures 0 <= p < |l.val|
      ensures l.next[p] == Null || 0 <= l.next[p] < |l.val|
      ensures l.prev[p] == Null || 0 <= l.prev[p] < |l.val|
    {
      var k :| 0 <= k < |o| && o[k] == p;
      assert l.next[o[k]] == Succ(o, k) && l.prev[o[k]] == Pred(o, k);
    }
  }

  // ---------------------------------------------------------------------------
  // Positions
  // ---------------------------------------------------------------------------

  /** The index of `p` in `o`. */
  function IndexOf(o: seq<int>, p: int): (k: nat)
    requires p in o
    ensures k < |o| && o[k] == p
    ensures forall j | 0 <= j < k :: o[j] != p
  {
    if o[0] == p then 0 else 1 + IndexOf(o[1..], p)
  }

  lemma IndexOfDistinct(o: seq<int>, k: nat)
    requires Distinct(o) && k < |o|
    ensures IndexOf(o, o[k]) == k
  {
  }

  /** The iterator designates a node of this list, or is End(). */
  predicate ValidIter(l: List, it: Iter) {
    it.node == Null || it.node in Order(l)
  }

  /** Where the iterator stands: the node's index, or `size` for End(). */
  function Position(l: List, it: Iter): nat
    requires ValidIter(l, it)
  {
    if it.node == Null then l.size else IndexOf(Order(l), it.node)
  }

  lemma PositionOfNode(l: List, k: nat)
    requires Valid(l) && k < l.size
    ensures ValidIter(l, Iter(Order(l)[k])) && Position(l, Iter(Order(l)[k])) == k
  {
    var o := Order(l);
    assert o[k] in o;
    assert o[k] != Null;
    IndexOfDistinct(o, k);
  }

  /** The iterator at index `k`, End() when `k` is the size. */
  function IterAt(l: List, k: nat): (it: Iter)
    requires Valid(l) && k <= l.size
    ensures ValidIter(l, it) && Position(l, it) == k
  {
    if k == l.size then Iter(Null)
    else
      PositionOfNode(l, k);
      Iter(Order(l)[k])
  }

  // ---------------------------------------------------------------------------
  // Iterators
  // ---------------------------------------------------------------------------

  function Begin(l: List): (it: Iter)
    requires Valid(l)
    ensures ValidIter(l, it) && Position(l, it) == 0
    ensures it == End() <==> Elements(l) == []
  {
    assert l.size > 0 ==> l.head == Order(l)[0];
    assert l.size > 0 ==> ValidIter(l, Iter(l.head)) && Position(l, Iter(l.head)) == 0 by {
      if l.size > 0 { PositionOfNode(l, 0); }
    }
    Iter(l.head)
  }

  /** `End()`: the null position, one past the last value of every list. */
  function End(): (it: Iter)
    ensures it.node == Null
    ensures forall l: List :: ValidIter(l, it) && Position(l, it) == l.size
  {
    Iter(Null)
  }

  function Cbegin(l: List): (it: ConstIter)
    requires Valid(l)
    ensures ValidIter(l, Widen(it)) && Position(l, Widen(it)) == 0
    ensures it == Cend() <==> Elements(l) == []
  {
    ConstIter(Begin(l).node)
  }

  /** `Cend()`: the read-only null position, one past the last value. */
  function Cend(): (c: ConstIter)
    ensures c.node == Null
    ensures forall l: List :: ValidIter(l, Iter(c.node)) && Position(l, Iter(c.node)) == l.size
  {
    ConstIter(Null)
  }

  /** Widening a read-only iterator to a mutable one keeps the position. */
  function Widen(c: ConstIter): (it: Iter)
    ensures it.node == c.node
    ensures c == Cend() <==> it == End()
  {
    Iter(c.node)
  }

  /** `*it`: the designated value; End() throws. */
  function Deref(l: List, it: Iter): (r: Result<int>)
    requires Valid(l) && ValidIter(l, it)
    ensures r.Err? <==> it == End()
    ensures r.Err? ==> r.error == NullIterator
    ensures r.Ok? ==> Position(l, it) < |Elements(l)| && r.value == Elements(l)[Position(l, it)]
  {
    if it.node == Null then Err(NullIterator) else Ok(l.val[it.node])
  }

  /** `++it`: one step towards the back; from the last node it reaches End(),
      and End() stays End(). */
  function Increment(l: List, it: Iter): (r: Iter)
    requires Valid(l) && ValidIter(l, it)
    ensures ValidIter(l, r)
    ensures Position(l, r) == if it == End() then l.size else Position(l, it) + 1
  {
    if it.node == Null then it
    else
      var o := Order(l);
      var k := IndexOf(o, it.node);
      assert l.next[o[k]] == Succ(o, k);
      assert k + 1 < |o| ==> ValidIter(l, Iter(o[k + 1])) && Position(l, Iter(o[k + 1])) == k + 1 by {
        if k + 1 < |o| { PositionOfNode(l, k + 1); }
      }
      Iter(l.next[it.node])
  }

  /** `--it`: one step towards the front. End() stays End() (so `--End()`
      never reaches the tail), and stepping back from the head gives End(). */
  function Decrement(l: List, it: Iter): (r: Iter)
    requires Valid(l) && ValidIter(l, it)
    ensures ValidIter(l, r)
    ensures it == End() || Position(l, it) == 0 ==> r == End()
    ensures it != End() && Position(l, it) > 0 ==> Position(l, r) == Position(l, it) - 1
  {
    if it.node == Null then it
    else
      var o := Order(l);
      var k := IndexOf(o, it.node);
      assert l.prev[o[k]] == Pred(o, k);
      assert k > 0 ==> ValidIter(l, Iter(o[k - 1])) && Position(l, Iter(o[k - 1])) == k - 1 by {
        if k > 0 { PositionOfNode(l, k - 1); }
      }
      Iter(l.prev[it.node])
  }

  /** `it++`: yields the prior position and moves the iterator one step. */
  function PostIncrement(l: List, it: Iter): (r: (Iter, Iter))
    requires Valid(l) && ValidIter(l, it)
    ensures r.0 == it
    ensures ValidIter(l, r.1)
    ensures Position(l, r.1) == if it == End() then l.size else Position(l, it) + 1
  {
    (it, Increment(l, it))
  }

  /** `it--`: yields the prior position and moves the iterator one step back. */
  function PostDecrement(l: List, it: Iter): (r: (Iter, Iter))
    requires Valid(l) && ValidIter(l, it)
    ensures r.0 == it
    ensures ValidIter(l, r.1)
    ensures it == End() || Position(l, it) == 0 ==> r.1 == End()
    ensures it != End() && Position(l, it) > 0 ==> Position(l, r.1) == Position(l, it) - 1
  {
    (it, Decrement(l, it))
  }

  /** Iterator equality is node identity: two valid iterators are equal exactly
      when they stand at the same position. */
  lemma IterEqualityIsPosition(l: List, a: Iter, b: Iter)
    requires Valid(l) && ValidIter(l, a) && ValidIter(l, b)
    ensures a == b <==> Position(l, a) == Position(l, b)
  {
    var o := Order(l);
    if a.node != Null && b.node != Null && Position(l, a) == Position(l, b) {
      assert a.node == o[Position(l, a)];
    }
  }

  /** `it == other`: compares the designated nodes, so two iterators of one
      list are equal exactly when they stand at the same position. */
  function Equal(l: List, a: Iter, b: Iter): (r: bool)
    requires Valid(l) && ValidIter(l, a) && ValidIter(l, b)
    ensures r <==> Position(l, a) == Position(l, b)
  {
    IterEqualityIsPosition(l, a, b);
    a.node == b.node
  }

  /** `cit == other` for read-only iterators. */
  function CEqual(l: List, a: ConstIter, b: ConstIter): (r: bool)
    requires Valid(l) && ValidIter(l, Widen(a)) && ValidIter(l, Widen(b))
    ensures r <==> Position(l, Widen(a)) == Position(l, Widen(b))
  {
    Equal(l, Widen(a), Widen(b))
  }

  /** `*cit`, `++cit`, `--cit` for read-only iterators: the same code as the
      mutable iterator's. */
  function CDeref(l: List, c: ConstIter): (r: Result<int>)
    requires Valid(l) && ValidIter(l, Widen(c))
    ensures r.Err? <==> c == Cend()
    ensures r.Err? ==> r.error == NullIterator
    ensures r.Ok? ==> Position(l, Widen(c)) < |Elements(l)| && r.value == Elements(l)[Position(l, Widen(c))]
  {
    Deref(l, Widen(c))
  }

  function CIncrement(l: List, c: ConstIter): (r: ConstIter)
    requires Valid(l) && ValidIter(l, Widen(c))
    ensures ValidIter(l, Widen(r))
    ensures Position(l, Widen(r)) == if c == Cend() then l.size else Position(l, Widen(c)) + 1
  {
    ConstIter(Increment(l, Widen(c)).node)
  }

  /** `cit++` for read-only iterators: yields the prior position and moves one
      step towards the back. */
  function CPostIncrement(l: List, c: ConstIter): (r: (ConstIter, ConstIter))
    requires Valid(l) && ValidIter(l, Widen(c))
    ensures r.0 == c
    ensures ValidIter(l, Widen(r.1))
    ensures Position(l, Widen(r.1)) == if c == Cend() then l.size else Position(l, Widen(c)) + 1
  {
    (c, CIncrement(l, c))
  }

  function CDecrement(l: List, c: ConstIter): (r: ConstIter)
    requires Valid(l) && ValidIter(l, Widen(c))
    ensures ValidIter(l, Widen(r))
    ensures c == Cend() || Position(l, Widen(c)) == 0 ==> r == Cend()
    ensures c != Cend() && Position(l, Widen(c)) > 0 ==> Position(l, Widen(r)) == Position(l, Widen(c)) - 1
  {
    ConstIter(Decrement(l, Widen(c)).node)
  }

  /** `cit--` for read-only iterators: yields the prior position and moves one
      step towards the front, or to Cend() from the first node. */
  function CPostDecrement(l: List, c: ConstIter): (r: (ConstIter, ConstIter))
    requires Valid(l) && ValidIter(l, Widen(c))
    ensures r.0 == c
    ensures ValidIter(l, Widen(r.1))
    ensures c == Cend() || Position(l, Widen(c)) == 0 ==> r.1 == Cend()
    ensures c != Cend() && Position(l, Widen(c)) > 0 ==> Position(l, Widen(r.1)) == Position(l, Widen(c)) - 1
  {
    (c, CDecrement(l, c))
  }
}

=== FILE: list_ops.dfy ===
/** The container operations of `s21::List<int>` that edit the node graph at
    one place: Insert, Erase, the pushes and pops at both ends, Splice, and the
    constructors, Swap, move and the `Insert_many*` helpers built on them.

    Two pointer edits do all the structural work. `Relink` links a chain of
    new nodes immediately before a position (Insert links a chain of one,
    Splice the chain of the other list); `Unlink` detaches one node. Each has a
    lemma stating the new node chain, from which every contract here follows.
 */
module ListOps {
  import opened Sequences
  import opened ListNode

  /** The arena indices `n`, `n + 1`, ..., `n + m - 1`. */
  function Fresh(n: nat, m: nat): seq<int> {
    seq(m, k => n + k)
  }

  /** Every node of `l` keeps its value in `r`: iterators into `l` that stay
      in `r`'s chain still dereference to the same value. */
  predicate KeepsValues(l: List, r: List) {
    |l.val| <= |r.val| && r.val[..|l.val|] == l.val
  }

  /** Every iterator into `l` stays valid in `r` and dereferences to the same
      value: an edit that invalidates no iterator. */
  ghost predicate KeepsIterators(l: List, r: List)
    requires Valid(l) && Valid(r)
  {
    forall x | ValidIter(l, x) :: ValidIter(r, x) && Deref(r, x) == Deref(l, x)
  }

  // ---------------------------------------------------------------------------
  // Pointer surgery
  // ---------------------------------------------------------------------------

  /** Successor links of `m` new nodes `n ..`: each points to the next new
      node, the last to `p`. */
  function ChainNext(n: nat, m: nat, p: int): seq<int> {
    seq(m, k => if k + 1 < m then n + k + 1 else p)
  }

  /** Predecessor links of `m` new nodes `n ..`: the first points to `q`,
      each other one to the previous new node. */
  function ChainPrev(n: nat, m: nat, q: int): seq<int> {
    seq(m, k => if k == 0 then q else n + k - 1)
  }

  /** Allocates one node per value of `F`, chains them in order, and links the
      chain between the node before `pos` and `pos` itself. A null neighbour on
      the left makes the chain the new head; End() makes it the new tail. */
  function Relink(l: List, pos: Iter, F: seq<int>): List
    requires Valid(l) && ValidIter(l, pos) && F != []
  {
    LinksInRange(l);
    var p := pos.node;
    Spliced(l, p, if p == Null then l.tail else l.prev[p], F)
  }

  /** The links after `F` is placed between node `q` and node `p` (either may
      be `Null`, meaning the front or the back). */
  function Spliced(l: List, p: int, q: int, F: seq<int>): List
    requires |l.next| == |l.val| && |l.prev| == |l.val|
    requires (p == Null || 0 <= p < |l.val|) && (q == Null || 0 <= q < |l.val|)
  {
    var n, m := |l.val|, |F|;
    List(l.val + F,
         (if q == Null then l.next else l.next[q := n]) + ChainNext(n, m, p),
         (if p == Null then l.prev else l.prev[p := n + m - 1]) + ChainPrev(n, m, q),
         if q == Null then n else l.head,
         if p == Null then n + m - 1 else l.tail,
         l.size + m)
  }

  lemma SplicedShape(o: seq<int>, i: nat, c: seq<int>)
    requires i <= |o|
    ensures |o[..i] + c + o[i..]| == |o| + |c|
    ensures forall k | 0 <= k < |o| + |c| ::
      (o[..i] + c + o[i..])[k] == if k < i then o[k] else if k < i + |c| then c[k - i] else o[k - |c|]
  {
  }

  lemma SplicedDistinct(o: seq<int>, i: nat, n: nat, m: nat)
    requires Distinct(o) && InArena(o, n) && i <= |o|
    ensures Distinct(o[..i] + Fresh(n, m) + o[i..]) && InArena(o[..i] + Fresh(n, m) + o[i..], n + m)
  {
    SplicedShape(o, i, Fresh(n, m));
  }

  lemma SplicedNext(next: seq<int>, o: seq<int>, i: nat, n: nat, m: nat, p: int, q: int)
    requires |next| == n && Distinct(o) && InArena(o, n) && NextLinks(next, o) && i <= |o| && m > 0
    requires p == (if i < |o| then o[i] else Null) && q == Pred(o, i)
    ensures NextLinks((if q == Null then next else next[q := n]) + ChainNext(n, m, p), o[..i] + Fresh(n, m) + o[i..])
  {
    var O := o[..i] + Fresh(n, m) + o[i..];
    var next' := (if q == Null then next else next[q := n]) + ChainNext(n, m, p);
    SplicedShape(o, i, Fresh(n, m));
    forall k | 0 <= k < |O| ensures 0 <= O[k] < |next'| {
    }
    NextFrame(next, n, m, p, q, next');
    forall k | 0 <= k < |O| ensures next'[O[k]] == Succ(O, k) {
      if k < i || k >= i + m {
        SplicedNextOld(next, o, i, n, m, q, next', O, k);
      } else {
        SplicedNextFresh(o, i, n, m, p, next', O, k);
      }
    }
  }

  /** What the updated successor links are, slot by slot. */
  lemma NextFrame(next: seq<int>, n: nat, m: nat, p: int, q: int, next': seq<int>)
    requires |next| == n && (q == Null || 0 <= q < n)
    requires next' == (if q == Null then next else next[q := n]) + ChainNext(n, m, p)
    ensures |next'| == n + m
    ensures forall j | 0 <= j < n && j != q :: next'[j] == next[j]
    ensures q != Null ==> next'[q] == n
    ensures forall k | 0 <= k < m :: next'[n + k] == ChainNext(n, m, p)[k]
  {
  }

  /** The successor of a new node after the splice. */
  lemma SplicedNextFresh(o: seq<int>, i: nat, n: nat, m: nat, p: int, next': seq<int>, O: seq<int>, k: int)
    requires i <= |o| && m > 0 && p == (if i < |o| then o[i] else Null)
    requires |next'| == n + m
    requires forall j | 0 <= j < m :: next'[n + j] == ChainNext(n, m, p)[j]
    requires O == o[..i] + Fresh(n, m) + o[i..] && |O| == |o| + m
    requires i <= k < i + m
    ensures next'[O[k]] == Succ(O, k)
  {
    SplicedShape(o, i, Fresh(n, m));
    assert O[k] == n + (k - i);
    assert next'[O[k]] == ChainNext(n, m, p)[k - i];
    if k + 1 < i + m {
      assert O[k + 1] == n + (k - i) + 1;
    } else if k + 1 < |O| {
      assert O[k + 1] == o[i];
    }
  }

  /** The successor of an old node after the splice. */
  lemma SplicedNextOld(next: seq<int>, o: seq<int>, i: nat, n: nat, m: nat, q: int, next': seq<int>, O: seq<int>, k: int)
    requires |next| == n && Distinct(o) && InArena(o, n) && NextLinks(next, o) && i <= |o| && m > 0
    requires q == Pred(o, i) && |next'| == n + m
    requires forall j | 0 <= j < n && j != q :: next'[j] == next[j]
    requires q != Null ==> next'[q] == n
    requires O == o[..i] + Fresh(n, m) + o[i..] && |O| == |o| + m
    requires 0 <= k < |O| && (k < i || k >= i + m)
    ensures next'[O[k]] == Succ(O, k)
  {
    SplicedShape(o, i, Fresh(n, m));
    if k < i - 1 {
      assert O[k] == o[k] && o[k] != q;
      assert next[o[k]] == Succ(o, k);
    } else if k == i - 1 {
      assert O[k] == o[k] == q;
    } else {
      assert O[k] == o[k - m] && o[k - m] != q;
      assert next[o[k - m]] == Succ(o, k - m);
    }
  }

  lemma SplicedPrev(prev: seq<int>, o: seq<int>, i: nat, n: nat, m: nat, p: int, q: int)
    requires |prev| == n && Distinct(o) && InArena(o, n) && PrevLinks(prev, o) && i <= |o| && m > 0
    requires p == (if i < |o| then o[i] else Null) && q == Pred(o, i)
    ensures PrevLinks((if p == Null then prev else prev[p := n + m - 1]) + ChainPrev(n, m, q), o[..i] + Fresh(n, m) + o[i..])
  {
    var O := o[..i] + Fresh(n, m) + o[i..];
    var prev' := (if p == Null then prev else prev[p := n + m - 1]) + ChainPrev(n, m, q);
    SplicedShape(o, i, Fresh(n, m));
    forall k | 0 <= k < |O| ensures 0 <= O[k] < |prev'| {
    }
    forall k | 0 <= k < |O| ensures prev'[O[k]] == Pred(O, k) {
      if k < i {
        assert O[k] == o[k] && o[k] != p;
        assert prev[o[k]] == Pred(o, k);
        assert prev'[O[k]] == prev[o[k]];
      } else if k < i + m {
        assert O[k] == n + (k - i);
        assert prev'[O[k]] == ChainPrev(n, m, q)[k - i];
      } else if k == i + m {
        assert O[k] == o[i] == p;
        assert prev'[p] == n + m - 1;
      } else {
        assert O[k] == o[k - m] && o[k - m] != p;
        assert prev[o[k - m]] == Pred(o, k - m);
        assert prev'[O[k]] == prev[o[k - m]];
      }
    }
  }

  lemma SplicedRepr(l: List, o: seq<int>, i: nat, p: int, q: int, F: seq<int>)
    requires Repr(l, o) && i <= |o| && F != []
    requires p == (if i < |o| then o[i] else Null) && q == Pred(o, i)
    ensures Repr(Spliced(l, p, q, F), o[..i] + Fresh(|l.val|, |F|) + o[i..])
  {
    var n, m := |l.val|, |F|;
    var r := Spliced(l, p, q, F);
    SplicedDistinct(o, i, n, m);
    SplicedEnds(o, i, n, m, p, q);
    SplicedLinks(l.next, l.prev, o, i, n, m, p, q, r.next, r.prev);
    ReprIntro(r, o[..i] + Fresh(n, m) + o[i..]);
  }

  lemma SplicedLinks(next: seq<int>, prev: seq<int>, o: seq<int>, i: nat, n: nat, m: nat, p: int, q: int,
                     next': seq<int>, prev': seq<int>)
    requires |next| == n && |prev| == n && Distinct(o) && InArena(o, n) && i <= |o| && m > 0
    requires NextLinks(next, o) && PrevLinks(prev, o)
    requires p == (if i < |o| then o[i] else Null) && q == Pred(o, i)
    requires next' == (if q == Null then next else next[q := n]) + ChainNext(n, m, p)
    requires prev' == (if p == Null then prev else prev[p := n + m - 1]) + ChainPrev(n, m, q)
    ensures NextLinks(next', o[..i] + Fresh(n, m) + o[i..])
    ensures PrevLinks(prev', o[..i] + Fresh(n, m) + o[i..])
  {
    SplicedNext(next, o, i, n, m, p, q);
    SplicedPrev(prev, o, i, n, m, p, q);
  }

  lemma ReprIntro(r: List, O: seq<int>)
    requires |r.next| == |r.val| && |r.prev| == |r.val| && |O| == r.size && O != []
    requires Distinct(O) && InArena(O, |r.val|)
    requires r.head == O[0] && r.tail == O[|O| - 1]
    requires NextLinks(r.next, O) && PrevLinks(r.prev, O)
    ensures Repr(r, O)
  {
  }

  lemma SplicedEnds(o: seq<int>, i: nat, n: nat, m: nat, p: int, q: int)
    requires InArena(o, n) && i <= |o| && m > 0
    requires p == (if i < |o| then o[i] else Null) && q == Pred(o, i)
    ensures var O := o[..i] + Fresh(n, m) + o[i..];
      && |O| == |o| + m
      && (if q == Null then n else o[0]) == O[0]
      && (if p == Null then n + m - 1 else o[|o| - 1]) == O[|O| - 1]
  {
    SplicedShape(o, i, Fresh(n, m));
  }

  /** The neighbours of the splice point, read from the links, are those of
      the walk order. */
  lemma RelinkNeighbours(l: List, pos: Iter)
    requires Valid(l) && ValidIter(l, pos)
    ensures pos.node == if Position(l, pos) < |Order(l)| then Order(l)[Position(l, pos)] else Null
    ensures (if pos.node == Null then l.tail else l.prev[pos.node]) == Pred(Order(l), Position(l, pos))
  {
    LinksInRange(l);
    var o := Order(l);
    var i := Position(l, pos);
    if pos.node != Null {
      assert PrevLinks(l.prev, o);
      assert l.prev[o[i]] == Pred(o, i);
    }
  }

  /** After `Relink` the chain is the old one with the new nodes inserted at
      the position of `pos`. */
  lemma RelinkCorrect(l: List, pos: Iter, F: seq<int>)
    requires Valid(l) && ValidIter(l, pos) && F != []
    ensures Repr(Relink(l, pos, F), Order(l)[..Position(l, pos)] + Fresh(|l.val|, |F|) + Order(l)[Position(l, pos)..])
  {
    LinksInRange(l);
    RelinkNeighbours(l, pos);
    var p := pos.node;
    SplicedRepr(l, Order(l), Position(l, pos), p, if p == Null then l.tail else l.prev[p], F);
  }

  /** Detaches node `p`: its neighbours are linked to each other, and `head` /
      `tail` move when `p` was the first / last node. */
  function Unlink(l: List, p: int): List
    requires Valid(l) && p in Order(l)
  {
    LinksInRange(l);
    var q := l.prev[p];
    var s := l.next[p];
    List(l.val,
         if q == Null then l.next else l.next[q := s],
         if s == Null then l.prev else l.prev[s := q],
         if q == Null then s else l.head,
         if s == Null then q else l.tail,
         l.size - 1)
  }

  lemma RemovedShape(o: seq<int>, i: nat)
    requires i < |o|
    ensures |o[..i] + o[i + 1..]| == |o| - 1
    ensures forall k | 0 <= k < |o| - 1 :: (o[..i] + o[i + 1..])[k] == if k < i then o[k] else o[k + 1]
  {
  }

  lemma RemovedNext(next: seq<int>, o: seq<int>, i: nat, q: int, s: int)
    requires Distinct(o) && InArena(o, |next|) && NextLinks(next, o) && i < |o|
    requires q == Pred(o, i) && s == Succ(o, i)
    ensures NextLinks(if q == Null then next else next[q := s], o[..i] + o[i + 1..])
  {
    var O := o[..i] + o[i + 1..];
    var next' := if q == Null then next else next[q := s];
    RemovedShape(o, i);
    forall k | 0 <= k < |O| ensures 0 <= O[k] < |next'| {
    }
    forall k | 0 <= k < |O| ensures next'[O[k]] == Succ(O, k) {
      if k < i - 1 {
        assert O[k] == o[k] && o[k] != q;
        assert next[o[k]] == Succ(o, k);
      } else if k >= i {
        assert O[k] == o[k + 1] && o[k + 1] != q;
        assert next[o[k + 1]] == Succ(o, k + 1);
      }
    }
  }

  lemma RemovedPrev(prev: seq<int>, o: seq<int>, i: nat, q: int, s: int)
    requires Distinct(o) && InArena(o, |prev|) && PrevLinks(prev, o) && i < |o|
    requires q == Pred(o, i) && s == Succ(o, i)
    ensures PrevLinks(if s == Null then prev else prev[s := q], o[..i] + o[i + 1..])
  {
    var O := o[..i] + o[i + 1..];
    var prev' := if s == Null then prev else prev[s := q];
    RemovedShape(o, i);
    forall k | 0 <= k < |O| ensures 0 <= O[k] < |prev'| {
    }
    forall k | 0 <= k < |O| ensures prev'[O[k]] == Pred(O, k) {
      if k < i {
        assert O[k] == o[k] && o[k] != s;
        assert prev[o[k]] == Pred(o, k);
      } else if k > i {
        assert O[k] == o[k + 1] && o[k + 1] != s;
        assert prev[o[k + 1]] == Pred(o, k + 1);
      }
    }
  }

  /** After `Unlink` the chain is the old one without `p`. */
  lemma UnlinkCorrect(l: List, p: int)
    requires Valid(l) && p in Order(l)
    ensures Repr(Unlink(l, p), Order(l)[..IndexOf(Order(l), p)] + Order(l)[IndexOf(Order(l), p) + 1..])
  {
    LinksInRange(l);
    var o := Order(l);
    var i := IndexOf(o, p);
    assert l.prev[o[i]] == Pred(o, i) && l.next[o[i]] == Succ(o, i);
    RemovedRepr(l, o, i, l.prev[p], l.next[p], Unlink(l, p));
  }

  lemma RemovedRepr(l: List, o: seq<int>, i: nat, q: int, s: int, r: List)
    requires Repr(l, o) && i < |o|
    requires q == Pred(o, i) && s == Succ(o, i)
    requires r == List(l.val,
                       if q == Null then l.next else l.next[q := s],
                       if s == Null then l.prev else l.prev[s := q],
                       if q == Null then s else l.head,
                       if s == Null then q else l.tail,
                       l.size - 1)
    ensures Repr(r, o[..i] + o[i + 1..])
  {
    var O := o[..i] + o[i + 1..];
    RemovedNext(l.next, o, i, q, s);
    RemovedPrev(l.prev, o, i, q, s);
    RemovedRest(o, i, |l.val|, q, s);
    assert |r.next| == |r.val| && |r.prev| == |r.val| && |O| == r.size;
    assert r.head == (if O == [] then Null else O[0]);
    assert r.tail == (if O == [] then Null else O[|O| - 1]);
  }

  lemma RemovedRest(o: seq<int>, i: nat, n: nat, q: int, s: int)
    requires Distinct(o) && InArena(o, n) && i < |o|
    requires q == Pred(o, i) && s == Succ(o, i)
    ensures var O := o[..i] + o[i + 1..];
      && Distinct(O) && InArena(O, n) && |O| == |o| - 1
      && (if q == Null then s else o[0]) == (if O == [] then Null else O[0])
      && (if s == Null then q else o[|o| - 1]) == (if O == [] then Null else O[|O| - 1])
  {
    RemovedShape(o, i);
  }

  lemma ValuesSpliced(val: seq<int>, o: seq<int>, i: nat, F: seq<int>)
    requires InArena(o, |val|) && i <= |o|
    ensures Values(val + F, o[..i] + Fresh(|val|, |F|) + o[i..]) == Values(val, o)[..i] + F + Values(val, o)[i..]
  {
    SplicedShape(o, i, Fresh(|val|, |F|));
  }

  lemma ValuesRemoved(val: seq<int>, o: seq<int>, i: nat)
    requires InArena(o, |val|) && i < |o|
    ensures Values(val, o[..i] + o[i + 1..]) == Values(val, o)[..i] + Values(val, o)[i + 1..]
  {
    RemovedShape(o, i);
  }

  /** Everything the container operations need to know about `Relink`. */
  lemma RelinkFacts(l: List, pos: Iter, F: seq<int>)
    requires Valid(l) && ValidIter(l, pos) && F != []
    ensures var r := Relink(l, pos, F);
      && Valid(r) && KeepsValues(l, r)
      && Order(r) == Order(l)[..Position(l, pos)] + Fresh(|l.val|, |F|) + Order(l)[Position(l, pos)..]
      && Elements(r) == Elements(l)[..Position(l, pos)] + F + Elements(l)[Position(l, pos)..]
  {
    var r := Relink(l, pos, F);
    RelinkCorrect(l, pos, F);
    WalkFollowsRepr(r, Order(l)[..Position(l, pos)] + Fresh(|l.val|, |F|) + Order(l)[Position(l, pos)..]);
    ValuesSpliced(l.val, Order(l), Position(l, pos), F);
    assert r.val[..|l.val|] == l.val;
  }

  /** Everything the container operations need to know about `Unlink`. */
  lemma UnlinkFacts(l: List, p: int)
    requires Valid(l) && p in Order(l)
    ensures var r := Unlink(l, p); var i := IndexOf(Order(l), p);
      && Valid(r) && r.val == l.val
      && Order(r) == Order(l)[..i] + Order(l)[i + 1..]
      && Elements(r) == Elements(l)[..i] + Elements(l)[i + 1..]
  {
    var o := Order(l);
    var i := IndexOf(o, p);
    var r := Unlink(l, p);
    UnlinkCorrect(l, p);
    WalkFollowsRepr(r, o[..i] + o[i + 1..]);
    assert r.val == l.val;
    ValuesRemoved(l.val, o, i);
  }

  // ---------------------------------------------------------------------------
  // Construction, queries, Swap and move
  // ---------------------------------------------------------------------------

  /** `List()`: no nodes, null head and tail. */
  function New(): (l: List)
    ensures Valid(l) && Elements(l) == []
  {
    List([], [], [], Null, Null, 0)
  }

  /** `Empty()`: the count is zero and the head is null. */
  function IsEmpty(l: List): (b: bool)
    requires Valid(l)
    ensures b <==> Elements(l) == []
  {
    l.size == 0 && l.head == Null
  }

  function Size(l: List): (n: nat)
    requires Valid(l)
    ensures n == |Elements(l)|
  {
    l.size
  }

  /** `Front()`: the first value; throws on an empty list. */
  function Front(l: List): (r: Result<int>)
    requires Valid(l)
    ensures Elements(l) == [] ==> r == Err(EmptyContainer)
    ensures Elements(l) != [] ==> r == Ok(Elements(l)[0])
  {
    if l.size == 0 then Err(EmptyContainer) else Ok(l.val[l.head])
  }

  /** `Back()`: the last value; throws on an empty list. */
  function Back(l: List): (r: Result<int>)
    requires Valid(l)
    ensures Elements(l) == [] ==> r == Err(EmptyContainer)
    ensures Elements(l) != [] ==> r == Ok(Elements(l)[|Elements(l)| - 1])
  {
    if l.size == 0 then Err(EmptyContainer) else Ok(l.val[l.tail])
  }

  /** `Clear()`: releases every node. */
  function Clear(l: List): (r: List)
    ensures Valid(r) && Elements(r) == []
  {
    New()
  }

  /** `Swap(other)`: the two lists exchange their whole contents. */
  function Swap(a: List, b: List): (r: (List, List))
    ensures Elements(r.0) == Elements(b) && Elements(r.1) == Elements(a)
    ensures Valid(a) && Valid(b) ==> Valid(r.0) && Valid(r.1)
  {
    (b, a)
  }

  /** Move construction and move assignment: the destination (first) receives
      the source's chain, whatever it held before, and the source (second) is
      left empty. */
  function Moved(src: List): (r: (List, List))
    requires Valid(src)
    ensures Valid(r.0) && Elements(r.0) == Elements(src)
    ensures Valid(r.1) && Elements(r.1) == [] && IsEmpty(r.1)
    ensures KeepsIterators(src, r.0)
  {
    (src, New())
  }

  // ---------------------------------------------------------------------------
  // Insert, Erase, push and pop
  // ---------------------------------------------------------------------------

  /** `Insert(pos, value)`: a new node holding `v` immediately before `pos`
      (at the back when `pos` is End()); returns an iterator to it. */
  function Insert(l: List, pos: Iter, v: int): (r: (List, Iter))
    requires Valid(l) && ValidIter(l, pos)
    ensures Valid(r.0) && KeepsValues(l, r.0)
    ensures Order(r.0) == Order(l)[..Position(l, pos)] + [r.1.node] + Order(l)[Position(l, pos)..]
    ensures Elements(r.0) == Elements(l)[..Position(l, pos)] + [v] + Elements(l)[Position(l, pos)..]
    ensures ValidIter(r.0, r.1) && Position(r.0, r.1) == Position(l, pos)
    ensures Deref(r.0, r.1) == Ok(v)
    ensures ValidIter(r.0, pos) && Position(r.0, pos) == Position(l, pos) + 1
  {
    InsertFacts(l, pos, v);
    (Relink(l, pos, [v]), Iter(|l.val|))
  }

  lemma InsertFacts(l: List, pos: Iter, v: int)
    requires Valid(l) && ValidIter(l, pos)
    ensures var r, it, i := Relink(l, pos, [v]), Iter(|l.val|), Position(l, pos);
      && Valid(r) && KeepsValues(l, r)
      && Order(r) == Order(l)[..i] + [it.node] + Order(l)[i..]
      && Elements(r) == Elements(l)[..i] + [v] + Elements(l)[i..]
      && ValidIter(r, it) && Position(r, it) == i
      && Deref(r, it) == Ok(v)
      && ValidIter(r, pos) && Position(r, pos) == i + 1
  {
    RelinkFacts(l, pos, [v]);
    assert Fresh(|l.val|, 1) == [|l.val|];
    RelinkKeepsIterators(l, pos, [v], pos);
    InsertedNode(l, pos, v);
  }

  /** The node `Insert` creates stands where `pos` stood and holds `v`. */
  lemma InsertedNode(l: List, pos: Iter, v: int)
    requires Valid(l) && ValidIter(l, pos)
    ensures var r, it := Relink(l, pos, [v]), Iter(|l.val|);
      && Valid(r) && ValidIter(r, it) && Position(r, it) == Position(l, pos)
      && Deref(r, it) == Ok(v)
  {
    RelinkFacts(l, pos, [v]);
    var r := Relink(l, pos, [v]);
    var i := Position(l, pos);
    assert Fresh(|l.val|, 1) == [|l.val|];
    assert Order(r)[i] == |l.val|;
    PositionOfNode(r, i);
  }

  /** `Erase(pos)`: detaches the node at `pos`; End() throws. */
  function Erase(l: List, pos: Iter): (r: Result<List>)
    requires Valid(l) && ValidIter(l, pos)
    ensures pos == End() <==> r == Err(NullIterator)
    ensures r.Err? ==> r.error == NullIterator
    ensures r.Ok? ==> Position(l, pos) < |Elements(l)|
    ensures r.Ok? ==>
      && Valid(r.value) && r.value.val == l.val
      && Order(r.value) == Order(l)[..Position(l, pos)] + Order(l)[Position(l, pos) + 1..]
      && Elements(r.value) == Elements(l)[..Position(l, pos)] + Elements(l)[Position(l, pos) + 1..]
  {
    if pos.node == Null then Err(NullIterator)
    else
      UnlinkFacts(l, pos.node);
      Ok(Unlink(l, pos.node))
  }

  /** `Push_back(value)`. */
  function PushBack(l: List, v: int): (r: List)
    requires Valid(l)
    ensures Valid(r) && Elements(r) == Elements(l) + [v]
  {
    PushBackFacts(l, v);
    Insert(l, End(), v).0
  }

  lemma PushBackFacts(l: List, v: int)
    requires Valid(l)
    ensures Valid(Insert(l, End(), v).0) && Elements(Insert(l, End(), v).0) == Elements(l) + [v]
  {
    var E := Elements(l);
    EmptyIffNullEnds(l);
    assert E[..|E|] == E && E[|E|..] == [];
  }

  /** `Push_front(value)`. */
  function PushFront(l: List, v: int): (r: List)
    requires Valid(l)
    ensures Valid(r) && Elements(r) == [v] + Elements(l)
  {
    PushFrontFacts(l, v);
    Insert(l, Begin(l), v).0
  }

  lemma PushFrontFacts(l: List, v: int)
    requires Valid(l)
    ensures Valid(Insert(l, Begin(l), v).0) && Elements(Insert(l, Begin(l), v).0) == [v] + Elements(l)
  {
    var E := Elements(l);
    assert E[..0] == [] && E[0..] == E;
  }

  /** `Pop_front()`: throws on an empty list. */
  function PopFront(l: List): (r: Result<List>)
    requires Valid(l)
    ensures Elements(l) == [] <==> r == Err(EmptyContainer)
    ensures r.Err? ==> r.error == EmptyContainer
    ensures r.Ok? ==> Valid(r.value) && Elements(r.value) == Elements(l)[1..]
  {
    if IsEmpty(l) then Err(EmptyContainer)
    else
      PopFrontFacts(l);
      Erase(l, Begin(l))
  }

  lemma PopFrontFacts(l: List)
    requires Valid(l) && Elements(l) != []
    ensures var r := Erase(l, Begin(l));
      r.Ok? && Valid(r.value) && Elements(r.value) == Elements(l)[1..]
  {
    var E := Elements(l);
    assert E[..0] + E[1..] == E[1..];
  }

  /** `Pop_back()`: throws on an empty list. */
  function PopBack(l: List): (r: Result<List>)
    requires Valid(l)
    ensures Elements(l) == [] <==> r == Err(EmptyContainer)
    ensures r.Err? ==> r.error == EmptyContainer
    ensures r.Ok? ==> Valid(r.value) && Elements(r.value) == Elements(l)[..|Elements(l)| - 1]
  {
    if IsEmpty(l) then Err(EmptyContainer)
    else
      PopBackFacts(l);
      Erase(l, Iter(l.tail))
  }

  lemma PopBackFacts(l: List)
    requires Valid(l) && Elements(l) != []
    ensures ValidIter(l, Iter(l.tail))
    ensures var r := Erase(l, Iter(l.tail));
      r.Ok? && Valid(r.value) && Elements(r.value) == Elements(l)[..|Elements(l)| - 1]
  {
    var E := Elements(l);
    EmptyIffNullEnds(l);
    PositionOfNode(l, l.size - 1);
    assert E[..|E| - 1] + E[|E|..] == E[..|E| - 1];
  }

  /** An iterator to any other node survives `Erase`, still yields its value
      and moves down one place when it stood behind the erased node: erasing
      invalidates only the erased node's iterators. */
  lemma EraseKeepsOtherIterators(l: List, pos: Iter, it: Iter)
    requires Valid(l) && ValidIter(l, pos) && ValidIter(l, it)
    requires pos != End() && it != pos
    ensures ValidIter(Erase(l, pos).value, it)
    ensures Deref(Erase(l, pos).value, it) == Deref(l, it)
    ensures Position(Erase(l, pos).value, it)
      == if Position(l, it) < Position(l, pos) then Position(l, it) else Position(l, it) - 1
  {
    var r := Erase(l, pos).value;
    var o := Order(l);
    var i := Position(l, pos);
    IterEqualityIsPosition(l, pos, it);
    if it.node != Null {
      var j := Position(l, it);
      assert o[j] == it.node && o[i] == pos.node;
      if j < i {
        assert Order(r)[j] == it.node;
        PositionOfNode(r, j);
      } else {
        assert Order(r)[j - 1] == it.node;
        PositionOfNode(r, j - 1);
      }
    }
  }

  /** Iterators into the list survive `Insert`, still yield their values and
      move up one place when they stood at or behind the insertion point. */
  lemma InsertKeepsIterators(l: List, pos: Iter, v: int, it: Iter)
    requires Valid(l) && ValidIter(l, pos) && ValidIter(l, it)
    ensures ValidIter(Insert(l, pos, v).0, it)
    ensures Deref(Insert(l, pos, v).0, it) == Deref(l, it)
    ensures Position(Insert(l, pos, v).0, it)
      == if Position(l, it) < Position(l, pos) then Position(l, it) else Position(l, it) + 1
  {
    RelinkKeepsIterators(l, pos, [v], it);
  }

  lemma SplicedIndex(o: seq<int>, i: nat, c: seq<int>, j: nat)
    requires i <= |o| && j < |o|
    ensures (o[..i] + c + o[i..])[if j < i then j else j + |c|] == o[j]
  {
    SplicedShape(o, i, c);
  }

  /** Relinking keeps every existing node, and its value, in the chain. */
  lemma RelinkKeepsIterators(l: List, pos: Iter, F: seq<int>, it: Iter)
    requires Valid(l) && ValidIter(l, pos) && ValidIter(l, it) && F != []
    ensures var r := Relink(l, pos, F);
      && Valid(r) && ValidIter(r, it) && Deref(r, it) == Deref(l, it)
      && Position(r, it) == if Position(l, it) < Position(l, pos) then Position(l, it) else Position(l, it) + |F|
  {
    RelinkFacts(l, pos, F);
    var r := Relink(l, pos, F);
    var i := Position(l, pos);
    EmptyIffNullEnds(l);
    EmptyIffNullEnds(r);
    if it.node != Null {
      var j := Position(l, it);
      SplicedIndex(Order(l), i, Fresh(|l.val|, |F|), j);
      PositionOfNode(r, if j < i then j else j + |F|);
      assert r.val[it.node] == r.val[..|l.val|][it.node];
    }
  }

  // ---------------------------------------------------------------------------
  // Splice and the bulk inserts
  // ---------------------------------------------------------------------------

  lemma SpliceFacts(l: List, pos: Iter, F: seq<int>)
    requires Valid(l) && ValidIter(l, pos) && F != []
    ensures var r, i := Relink(l, pos, F), Position(l, pos);
      && Valid(r) && KeepsValues(l, r)
      && Elements(r) == Elements(l)[..i] + F + Elements(l)[i..]
  {
    RelinkFacts(l, pos, F);
  }

  lemma SplitAt(E: seq<int>, i: nat)
    requires i <= |E|
    ensures E[..i] + [] + E[i..] == E
  {
    assert E[..i] + E[i..] == E;
  }

  /** `Splice(pos, other)`: the whole of `other` moves in front of `pos`, in
      its own order, and `other` is left empty; an empty `other` changes
      nothing. */
  function Splice(l: List, pos: Iter, other: List): (r: (List, List))
    requires Valid(l) && Valid(other) && ValidIter(l, pos)
    ensures Valid(r.0) && Valid(r.1) && Elements(r.1) == []
    ensures Elements(r.0) == Elements(l)[..Position(l, pos)] + Elements(other) + Elements(l)[Position(l, pos)..]
    ensures Elements(other) == [] ==> r.0 == l
    ensures KeepsValues(l, r.0)
  {
    if IsEmpty(other) then
      EmptyIffNullEnds(l);
      SplitAt(Elements(l), Position(l, pos));
      (l, other)
    else
      SpliceFacts(l, pos, Elements(other));
      (Relink(l, pos, Elements(other)), New())
  }

  /** Iterators into the receiving list survive `Splice` and still yield their
      values; the moved values sit in front of `pos`. */
  lemma SpliceKeepsIterators(l: List, pos: Iter, other: List, it: Iter)
    requires Valid(l) && Valid(other) && ValidIter(l, pos) && ValidIter(l, it)
    ensures ValidIter(Splice(l, pos, other).0, it)
    ensures Deref(Splice(l, pos, other).0, it) == Deref(l, it)
    ensures Position(Splice(l, pos, other).0, it)
      == if Position(l, it) < Position(l, pos) then Position(l, it) else Position(l, it) + |Elements(other)|
  {
    if !IsEmpty(other) {
      RelinkKeepsIterators(l, pos, Elements(other), it);
    }
  }

  /** `List(n)`: `n` value-initialised elements (zeros). */
  function Filled(n: nat): (r: List)
    ensures Valid(r) && Elements(r) == Repeat(n, 0)
  {
    if n == 0 then New() else PushBack(Filled(n - 1), 0)
  }

  lemma AppendStep(E: seq<int>, vs: seq<int>)
    requires vs != []
    ensures E + [vs[0]] + vs[1..] == E + vs
  {
    assert [vs[0]] + vs[1..] == vs;
  }

  /** `Insert_many_back(args...)`: pushes each value at the back, in order. */
  function InsertManyBack(l: List, vs: seq<int>): (r: List)
    requires Valid(l)
    ensures Valid(r) && Elements(r) == Elements(l) + vs
    decreases |vs|
  {
    if vs == [] then l
    else
      AppendStep(Elements(l), vs);
      InsertManyBack(PushBack(l, vs[0]), vs[1..])
  }

  lemma ReversedStep(vs: seq<int>, E: seq<int>)
    requires vs != []
    ensures Reversed(vs[1..]) + ([vs[0]] + E) == Reversed(vs) + E
  {
    assert Reversed(vs) == Reversed(vs[1..]) + [vs[0]];
    ConcatAssoc(Reversed(vs[1..]), [vs[0]], E);
  }

  lemma InsertManyStep(E: seq<int>, i: nat, vs: seq<int>)
    requires i <= |E| && vs != []
    ensures var E1 := E[..i] + [vs[0]] + E[i..];
      E1[..i + 1] + vs[1..] + E1[i + 1..] == E[..i] + vs + E[i..]
  {
    InsertedSlices(E, i, vs[0], E[..i] + [vs[0]] + E[i..]);
    assert [vs[0]] + vs[1..] == vs;
  }

  /** `Insert_many_front(args...)`: pushes each value at the front, in order,
      so the values end up in reverse. */
  function InsertManyFront(l: List, vs: seq<int>): (r: List)
    requires Valid(l)
    ensures Valid(r) && Elements(r) == Reversed(vs) + Elements(l)
    decreases |vs|
  {
    if vs == [] then l
    else
      var r := InsertManyFront(PushFront(l, vs[0]), vs[1..]);
      ReversedStep(vs, Elements(l));
      r
  }

  /** `Insert_many(pos, args...)`: inserts each value immediately before
      `pos`, so they appear in argument order in front of the node at `pos`.
      Returns an iterator to that node (End() when `pos` was End()). */
  function InsertMany(l: List, pos: ConstIter, vs: seq<int>): (r: (List, Iter))
    requires Valid(l) && ValidIter(l, Widen(pos))
    ensures Valid(r.0)
    ensures Elements(r.0) == Elements(l)[..Position(l, Widen(pos))] + vs + Elements(l)[Position(l, Widen(pos))..]
    ensures r.1 == Widen(pos) && ValidIter(r.0, r.1) && Position(r.0, r.1) == Position(l, Widen(pos)) + |vs|
    decreases |vs|
  {
    if vs == [] then (l, Widen(pos))
    else
      var (l1, _) := Insert(l, Widen(pos), vs[0]);
      var r := InsertMany(l1, pos, vs[1..]);
      InsertManyStep(Elements(l), Position(l, Widen(pos)), vs);
      r
  }

  /** `List(items)`: the initializer-list constructor keeps the given order. */
  function FromSeq(items: seq<int>): (r: List)
    ensures Valid(r) && Elements(r) == items
  {
    InsertManyBack(New(), items)
  }
}

=== FILE: queue.dfy ===
/** `s21::Queue<int>`: a FIFO adaptor over `s21::List<int>`. The queue owns
    one list; `Push` appends at its back, `Pop` removes its front, and every
    query is answered by the list. Errors of the list (an empty container)
    propagate unchanged.

    The abstract content of a queue is the value sequence of its list, the
    oldest value first.
 */
module Queues {
  import opened Sequences
  import ListNode
  import ListOps
  import ListAlgorithms

  datatype Queue = Queue(container: ListNode.List)

  predicate Valid(q: Queue) {
    ListNode.Valid(q.container)
  }

  /** The queued values, the next one to leave first. */
  function Contents(q: Queue): seq<int>
    requires Valid(q)
  {
    ListNode.Elements(q.container)
  }

  /** `Queue()`. */
  function New(): (q: Queue)
    ensures Valid(q) && Contents(q) == []
  {
    Queue(ListOps.New())
  }

  /** `Queue(items)`: the first item is the first to leave. */
  function FromSeq(items: seq<int>): (q: Queue)
    ensures Valid(q) && Contents(q) == items
  {
    Queue(ListOps.FromSeq(items))
  }

  /** `Front()`: the oldest value; throws on an empty queue. */
  function Front(q: Queue): (r: ListNode.Result<int>)
    requires Valid(q)
    ensures Contents(q) == [] <==> r == ListNode.Err(ListNode.EmptyContainer)
    ensures Contents(q) != [] ==> r == ListNode.Ok(Contents(q)[0])
  {
    ListOps.Front(q.container)
  }

  /** `Back()`: the newest value; throws on an empty queue. */
  function Back(q: Queue): (r: ListNode.Result<int>)
    requires Valid(q)
    ensures Contents(q) == [] <==> r == ListNode.Err(ListNode.EmptyContainer)
    ensures Contents(q) != [] ==> r == ListNode.Ok(Contents(q)[|Contents(q)| - 1])
  {
    ListOps.Back(q.container)
  }

  /** `Empty()`. */
  function IsEmpty(q: Queue): (b: bool)
    requires Valid(q)
    ensures b <==> Contents(q) == []
  {
    ListOps.IsEmpty(q.container)
  }

  /** `Size()`. */
  function Size(q: Queue): (n: nat)
    requires Valid(q)
    ensures n == |Contents(q)|
  {
    ListOps.Size(q.container)
  }

  /** `Push(value)`: joins at the back. */
  function Push(q: Queue, v: int): (r: Queue)
    requires Valid(q)
    ensures Valid(r) && Contents(r) == Contents(q) + [v]
  {
    Queue(ListOps.PushBack(q.container, v))
  }

  /** `Pop()`: the front leaves; throws on an empty queue. */
  function Pop(q: Queue): (r: ListNode.Result<Queue>)
    requires Valid(q)
    ensures Contents(q) == [] <==> r == ListNode.Err(ListNode.EmptyContainer)
    ensures r.Err? ==> r.error == ListNode.EmptyContainer
    ensures r.Ok? ==> Valid(r.value) && Contents(r.value) == Contents(q)[1..]
  {
    match ListOps.PopFront(q.container)
    case Ok(l) => ListNode.Ok(Queue(l))
    case Err(e) => ListNode.Err(e)
  }

  /** `Swap(other)`: the two queues exchange their whole contents. */
  function Swap(a: Queue, b: Queue): (r: (Queue, Queue))
    requires Valid(a) && Valid(b)
    ensures Valid(r.0) && Valid(r.1)
    ensures Contents(r.0) == Contents(b) && Contents(r.1) == Contents(a)
  {
    var (x, y) := ListOps.Swap(a.container, b.container);
    (Queue(x), Queue(y))
  }

  /** `Insert_many_back(args...)`: the values join at the back in argument
      order. */
  function InsertManyBack(q: Queue, vs: seq<int>): (r: Queue)
    requires Valid(q)
    ensures Valid(r) && Contents(r) == Contents(q) + vs
  {
    Queue(ListOps.InsertManyBack(q.container, vs))
  }

  /** Move construction and move assignment: the destination (first) takes
      the source's values and the source (second) is left empty. */
  function Moved(src: Queue): (r: (Queue, Queue))
    requires Valid(src)
    ensures Valid(r.0) && Contents(r.0) == Contents(src)
    ensures Valid(r.1) && IsEmpty(r.1)
  {
    var (d, s) := ListOps.Moved(src.container);
    (Queue(d), Queue(s))
  }

  /** The copy constructor: a new list holding the same values. */
  method Copy(q: Queue) returns (r: Queue)
    requires Valid(q)
    ensures Valid(r) && Contents(r) == Contents(q)
  {
    var l := ListAlgorithms.Copy(q.container);
    r := Queue(l);
  }

  // ---------------------------------------------------------------------------
  // First in, first out
  // ---------------------------------------------------------------------------

  /** Pushes the values one by one. */
  function PushAll(q: Queue, vs: seq<int>): (r: Queue)
    requires Valid(q)
    ensures Valid(r) && Contents(r) == Contents(q) + vs
    decreases |vs|
  {
    if vs == [] then q
    else
      assert Contents(q) + [vs[0]] + vs[1..] == Contents(q) + vs by {
        assert [vs[0]] + vs[1..] == vs;
      }
      PushAll(Push(q, vs[0]), vs[1..])
  }

  /** `Pop` removes exactly the front value: the queue before is that value
      followed by the queue after. */
  lemma PopRemovesFront(q: Queue)
    requires Valid(q) && !IsEmpty(q)
    ensures Pop(q).Ok? && Contents(q) == [Contents(q)[0]] + Contents(Pop(q).value)
  {
    var E := Contents(q);
    assert E == [E[0]] + E[1..];
  }

  /** Reads the front and pops it. */
  method TakeFront(q: Queue) returns (v: int, r: Queue)
    requires Valid(q) && !IsEmpty(q)
    ensures Valid(r) && Contents(q) == [v] + Contents(r)
  {
    PopRemovesFront(q);
    v := Front(q).value;
    r := Pop(q).value;
  }

  /** Reads `Front` and `Pop`s until the queue is empty; returns the values
      in the order they were read. */
  method Drain(q: Queue) returns (out: seq<int>, r: Queue)
    requires Valid(q)
    ensures out == Contents(q)
    ensures Valid(r) && IsEmpty(r)
  {
    out, r := [], q;
    while !IsEmpty(r)
      invariant Valid(r) && out + Contents(r) == Contents(q)
      decreases |Contents(r)|
    {
      var front;
      front, r := TakeFront(r);
      ConcatAssoc(out, [front], Contents(r));
      out := out + [front];
    }
  }

  /** Pushing and popping commute on a non-empty queue: the value pushed is
      not the one that leaves. */
  lemma PushPopCommute(q: Queue, v: int)
    requires Valid(q) && !IsEmpty(q)
    ensures Pop(Push(q, v)).Ok? && Pop(q).Ok?
    ensures Contents(Pop(Push(q, v)).value) == Contents(Push(Pop(q).value, v))
  {
    var E := Contents(q);
    assert (E + [v])[1..] == E[1..] + [v];
  }

  /** The value pushed into an empty queue is the next to leave. */
  lemma PushIntoEmpty(q: Queue, v: int)
    requires Valid(q) && IsEmpty(q)
    ensures Front(Push(q, v)) == ListNode.Ok(v) && Back(Push(q, v)) == ListNode.Ok(v)
    ensures Pop(Push(q, v)).Ok? && IsEmpty(Pop(Push(q, v)).value)
  {
    assert Contents(Push(q, v)) == [v];
  }

  /** Values pushed into an empty queue leave it in the order they came. */
  method PushThenDrain(vs: seq<int>) returns (out: seq<int>)
    ensures out == vs
  {
    var q := PushAll(New(), vs);
    var emptied;
    out, emptied := Drain(q);
  }

  /** `0, 1, ..., n - 1`. */
  function Range(n: nat): (s: seq<int>)
    ensures |s| == n && forall i | 0 <= i < n :: s[i] == i
  {
    seq(n, i => i)
  }

  /** Pushing `0 .. n - 1` gives a queue of size `n` with front 0 and back
      `n - 1`. */
  lemma RangeQueue(n: nat)
    requires n > 0
    ensures var q := PushAll(New(), Range(n));
      Size(q) == n && Front(q) == ListNode.Ok(0) && Back(q) == ListNode.Ok(n - 1)
  {
    var q := PushAll(New(), Range(n));
    assert Contents(q) == Range(n);
    assert Contents(q)[0] == 0 && Contents(q)[n - 1] == n - 1;
  }

  /** Ten thousand pushes of `0 .. 9999`: the size is 10000, the front 0 and
      the back 9999; popping them all yields the values in order and leaves
      the queue empty. */
  method LargeData() returns (size: nat, front: ListNode.Result<int>, back: ListNode.Result<int>,
                              out: seq<int>, rest: Queue)
    ensures size == 10000 && front == ListNode.Ok(0) && back == ListNode.Ok(9999)
    ensures out == Range(10000) && Valid(rest) && IsEmpty(rest)
  {
    var q := PushAll(New(), Range(10000));
    RangeQueue(10000);
    size, front, back := Size(q), Front(q), Back(q);
    out, rest := Drain(q);
  }
}

=== FILE: sequences.dfy ===
/** Value-level specifications of the list algorithms.

    Every operation of the container is stated, in the end, as an edit of the
    sequence of values it holds. This module defines those edits as pure
    functions on `seq<int>` and proves the facts the container contracts rely
    on: merging is a permutation and keeps sortedness, the tie rule of a merge
    is irrelevant for sorted runs, collapsing adjacent duplicates leaves no
    adjacent duplicates, and a sorted permutation is unique.
 */
module Sequences {

  /** Non-decreasing order. */
  predicate Sorted(s: seq<int>) {
    forall i, j | 0 <= i < j < |s| :: s[i] <= s[j]
  }

  /** No element is equal to its immediate predecessor. */
  predicate NoAdjacentDuplicates(s: seq<int>) {
    forall i | 0 < i < |s| :: s[i] != s[i - 1]
  }

  /** `x` is a lower bound of every element of `s`. */
  predicate LowerBound(x: int, s: seq<int>) {
    forall y | y in s :: x <= y
  }

  /** The two sequences have no value in common. */
  predicate NoCommonValue(a: seq<int>, b: seq<int>) {
    forall x | x in a :: x !in b
  }

  lemma PrefixSnoc(s: seq<int>, i: nat)
    requires i < |s|
    ensures s[..i + 1] == s[..i] + [s[i]]
  {
  }

  lemma SuffixTail(s: seq<int>, i: nat)
    requires i < |s|
    ensures s[i..][0] == s[i] && s[i..][1..] == s[i + 1..]
  {
  }

  lemma InsertedSlices(E: seq<int>, i: nat, y: int, E': seq<int>)
    requires i <= |E| && E' == E[..i] + [y] + E[i..]
    ensures E'[..i + 1] == E[..i] + [y] && E'[i + 1..] == E[i..]
  {
  }

  lemma ConcatAssoc(a: seq<int>, b: seq<int>, c: seq<int>)
    ensures a + (b + c) == a + b + c
  {
  }

  /** `n` copies of `v`. */
  function Repeat(n: nat, v: int): (r: seq<int>)
    ensures |r| == n
    ensures forall i | 0 <= i < n :: r[i] == v
  {
    if n == 0 then [] else Repeat(n - 1, v) + [v]
  }

  /** The elements of `s`, last first. */
  function Reversed(s: seq<int>): (r: seq<int>)
    ensures |r| == |s|
    ensures forall i | 0 <= i < |s| :: r[i] == s[|s| - 1 - i]
  {
    if s == [] then [] else Reversed(s[1..]) + [s[0]]
  }

  /** Reversing twice restores the sequence. */
  lemma ReversedInvolution(s: seq<int>)
    ensures Reversed(Reversed(s)) == s
  {
  }

  /** Reversing permutes the values. */
  lemma {:induction false} ReversedPermutes(s: seq<int>)
    ensures multiset(Reversed(s)) == multiset(s)
  {
    if s != [] {
      calc {
        multiset(Reversed(s));
        multiset(Reversed(s[1..]) + [s[0]]);
        { ReversedPermutes(s[1..]); }
        multiset(s[1..]) + multiset{s[0]};
        { assert s == [s[0]] + s[1..]; }
        multiset(s);
      }
    }
  }

  // ---------------------------------------------------------------------------
  // Merging two runs
  // ---------------------------------------------------------------------------

  /** Two-cursor merge. While both runs are non-empty the smaller head is taken;
      on equal heads `otherWinsTies` decides: true takes the head of `b` (the
      argument list) first, false takes the head of `a` first (the rule of
      libstdc++'s `std::list::merge`, which the C++ standard fixes only for
      sorted runs). What is left of either run is appended. */
  function MergeSeq(a: seq<int>, b: seq<int>, otherWinsTies: bool): (r: seq<int>)
    ensures |r| == |a| + |b|
    ensures multiset(r) == multiset(a) + multiset(b)
    decreases |a| + |b|
  {
    if a == [] then b
    else if b == [] then a
    else if a[0] < b[0] || (a[0] == b[0] && !otherWinsTies) then
      assert a == [a[0]] + a[1..];
      [a[0]] + MergeSeq(a[1..], b, otherWinsTies)
    else
      assert b == [b[0]] + b[1..];
      [b[0]] + MergeSeq(a, b[1..], otherWinsTies)
  }

  /** `r` is what a two-cursor merge of `a` and `b` can produce when nothing is
      said about ties: each step emits a head that is not greater than the
      other head, and the rest of the merge continues from there. */
  predicate IsGreedyMerge(r: seq<int>, a: seq<int>, b: seq<int>)
    decreases |a| + |b|
  {
    if a == [] then r == b
    else if b == [] then r == a
    else
      && r != []
      && ((a[0] <= b[0] && r[0] == a[0] && IsGreedyMerge(r[1..], a[1..], b))
          || (b[0] <= a[0] && r[0] == b[0] && IsGreedyMerge(r[1..], a, b[1..])))
  }

  lemma {:induction false} MergeSeqIsGreedy(a: seq<int>, b: seq<int>, otherWinsTies: bool)
    ensures IsGreedyMerge(MergeSeq(a, b, otherWinsTies), a, b)
    decreases |a| + |b|
  {
    if a != [] && b != [] {
      var r := MergeSeq(a, b, otherWinsTies);
      if a[0] < b[0] || (a[0] == b[0] && !otherWinsTies) {
        MergeSeqIsGreedy(a[1..], b, otherWinsTies);
        assert r[1..] == MergeSeq(a[1..], b, otherWinsTies);
      } else {
        MergeSeqIsGreedy(a, b[1..], otherWinsTies);
        assert r[1..] == MergeSeq(a, b[1..], otherWinsTies);
      }
    }
  }

  lemma {:induction false} GreedyMergePermutes(r: seq<int>, a: seq<int>, b: seq<int>)
    requires IsGreedyMerge(r, a, b)
    ensures |r| == |a| + |b|
    ensures multiset(r) == multiset(a) + multiset(b)
    decreases |a| + |b|
  {
    if a != [] && b != [] {
      assert r == [r[0]] + r[1..];
      if a[0] <= b[0] && r[0] == a[0] && IsGreedyMerge(r[1..], a[1..], b) {
        GreedyMergePermutes(r[1..], a[1..], b);
        assert a == [a[0]] + a[1..];
      } else {
        GreedyMergePermutes(r[1..], a, b[1..]);
        assert b == [b[0]] + b[1..];
      }
    }
  }

  lemma SortedTail(s: seq<int>)
    requires Sorted(s) && s != []
    ensures Sorted(s[1..]) && LowerBound(s[0], s[1..]) && LowerBound(s[0], s)
  {
    forall y | y in s[1..] ensures s[0] <= y {
      var k :| 0 <= k < |s[1..]| && s[1..][k] == y;
      assert s[k + 1] == y;
    }
  }

  lemma LowerBoundOfCons(x: int, r: seq<int>)
    requires r != [] && x <= r[0] && Sorted(r[1..]) && LowerBound(r[0], r[1..])
    ensures Sorted(r)
  {
    forall i, j | 0 <= i < j < |r| ensures r[i] <= r[j] {
      if i > 0 {
        assert r[i] == r[1..][i - 1] && r[j] == r[1..][j - 1];
      } else {
        assert r[j] == r[1..][j - 1] && r[j] in r[1..];
      }
    }
  }

  /** A greedy merge of sorted runs is sorted. */
  lemma {:induction false} GreedyMergeSorted(r: seq<int>, a: seq<int>, b: seq<int>)
    requires Sorted(a) && Sorted(b) && IsGreedyMerge(r, a, b)
    ensures Sorted(r)
    decreases |a| + |b|
  {
    if a != [] && b != [] {
      SortedTail(a);
      SortedTail(b);
      var x, a', b' := r[0], a, b;
      if a[0] <= b[0] && r[0] == a[0] && IsGreedyMerge(r[1..], a[1..], b) {
        a' := a[1..];
      } else {
        b' := b[1..];
      }
      assert IsGreedyMerge(r[1..], a', b');
      assert LowerBound(x, a') && LowerBound(x, b');
      GreedyMergeSorted(r[1..], a', b');
      GreedyMergePermutes(r[1..], a', b');
      forall y | y in r[1..] ensures x <= y {
        assert y in multiset(r[1..]);
        assert y in multiset(a') || y in multiset(b');
      }
      LowerBoundOfCons(x, r);
    }
  }

  /** The head of a non-empty sorted sequence is its least element. */
  lemma SortedHeadIsMinimum(x: seq<int>, y: seq<int>)
    requires Sorted(x) && Sorted(y) && x != [] && multiset(x) == multiset(y)
    ensures y != [] && x[0] == y[0]
  {
    assert x[0] in multiset(y);
    assert y != [];
    assert y[0] in multiset(x);
    SortedTail(x);
    SortedTail(y);
  }

  /** A sorted sequence is determined by its multiset. */
  lemma {:induction false} SortedPermutationUnique(x: seq<int>, y: seq<int>)
    requires Sorted(x) && Sorted(y) && multiset(x) == multiset(y)
    ensures x == y
    decreases |x|
  {
    if x == [] {
      assert |multiset(y)| == 0;
    } else {
      SortedHeadIsMinimum(x, y);
      assert x == [x[0]] + x[1..];
      assert y == [y[0]] + y[1..];
      assert multiset(x[1..]) == multiset(y[1..]) by {
        assert multiset(x) == multiset{x[0]} + multiset(x[1..]);
        assert multiset(y) == multiset{y[0]} + multiset(y[1..]);
        forall z ensures multiset(x[1..])[z] == multiset(y[1..])[z] {
          assert multiset(x)[z] == multiset{x[0]}[z] + multiset(x[1..])[z];
          assert multiset(y)[z] == multiset{y[0]}[z] + multiset(y[1..])[z];
        }
      }
      SortedTail(x);
      SortedTail(y);
      SortedPermutationUnique(x[1..], y[1..]);
    }
  }

  /** For sorted runs the outcome of a merge does not depend on the tie rule:
      every greedy merge equals the `std::list::merge` result, and is sorted. */
  lemma {:induction false} GreedyMergeOfSortedRuns(r: seq<int>, a: seq<int>, b: seq<int>)
    requires Sorted(a) && Sorted(b) && IsGreedyMerge(r, a, b)
    ensures Sorted(r)
    ensures r == MergeSeq(a, b, false) && r == MergeSeq(a, b, true)
  {
    GreedyMergeSorted(r, a, b);
    GreedyMergePermutes(r, a, b);
    forall t: bool ensures r == MergeSeq(a, b, t) {
      var m := MergeSeq(a, b, t);
      MergeSeqIsGreedy(a, b, t);
      GreedyMergeSorted(m, a, b);
      SortedPermutationUnique(r, m);
    }
  }

  /** When the runs share no value no tie can occur, so every greedy merge
      equals the result of libstdc++'s `std::list::merge` rule even for
      unsorted runs. */
  lemma {:induction false} GreedyMergeWithoutTies(r: seq<int>, a: seq<int>, b: seq<int>)
    requires NoCommonValue(a, b) && IsGreedyMerge(r, a, b)
    ensures r == MergeSeq(a, b, false)
    decreases |a| + |b|
  {
    if a != [] && b != [] {
      assert a[0] in a;
      assert a[0] != b[0];
      assert r == [r[0]] + r[1..];
      if a[0] < b[0] {
        assert NoCommonValue(a[1..], b) by {
          forall x | x in a[1..] ensures x !in b { assert x in a; }
        }
        GreedyMergeWithoutTies(r[1..], a[1..], b);
      } else {
        assert NoCommonValue(a, b[1..]);
        GreedyMergeWithoutTies(r[1..], a, b[1..]);
      }
    }
  }

  // ---------------------------------------------------------------------------
  // Collapsing runs of equal adjacent values
  // ---------------------------------------------------------------------------

  /** Drops every element equal to its immediate predecessor, scanning from the
      back: the value sequence `Unique` leaves behind. */
  function UniqueSeq(s: seq<int>): (r: seq<int>)
    ensures |r| <= |s|
    ensures s != [] ==> r != [] && r[0] == s[0] && r[|r| - 1] == s[|s| - 1]
    ensures NoAdjacentDuplicates(r)
  {
    if |s| <= 1 then s
    else if s[|s| - 1] == s[|s| - 2] then UniqueSeq(s[..|s| - 1])
    else UniqueSeq(s[..|s| - 1]) + [s[|s| - 1]]
  }

  /** Reference definition, scanning from the front: the head of every run of
      equal values is kept. */
  function RunHeads(s: seq<int>): seq<int>
  {
    if |s| <= 1 then s
    else if s[0] == s[1] then RunHeads(s[1..])
    else [s[0]] + RunHeads(s[1..])
  }

  lemma {:induction false} RunHeadsSnoc(s: seq<int>, x: int)
    requires s != []
    ensures RunHeads(s + [x]) == if s[|s| - 1] == x then RunHeads(s) else RunHeads(s) + [x]
    decreases |s|
  {
    var t := s + [x];
    if |s| == 1 {
      assert t == [s[0], x];
      assert t[1..] == [x];
    } else {
      assert t[1..] == s[1..] + [x];
      assert s[1..][|s[1..]| - 1] == s[|s| - 1];
      RunHeadsSnoc(s[1..], x);
    }
  }

  /** The back-to-front and front-to-back descriptions of `Unique` agree. */
  lemma {:induction false} UniqueSeqIsRunHeads(s: seq<int>)
    ensures UniqueSeq(s) == RunHeads(s)
    decreases |s|
  {
    if |s| > 1 {
      var init := s[..|s| - 1];
      UniqueSeqIsRunHeads(init);
      assert s == init + [s[|s| - 1]];
      RunHeadsSnoc(init, s[|s| - 1]);
    }
  }

  lemma {:induction false} UniqueSeqKeepsValues(s: seq<int>)
    ensures forall x :: x in UniqueSeq(s) <==> x in s
    decreases |s|
  {
    if |s| > 1 {
      var init := s[..|s| - 1];
      UniqueSeqKeepsValues(init);
      assert s == init + [s[|s| - 1]];
      if s[|s| - 1] == s[|s| - 2] {
        assert s[|s| - 1] in init;
      }
    }
  }

  /** A sequence with no adjacent duplicates is left unchanged. */
  lemma {:induction false} UniqueSeqFixesCollapsed(s: seq<int>)
    requires NoAdjacentDuplicates(s)
    ensures UniqueSeq(s) == s
    decreases |s|
  {
    if |s| > 1 {
      var init := s[..|s| - 1];
      assert NoAdjacentDuplicates(init) by {
        forall i | 0 < i < |init| ensures init[i] != init[i - 1] {
          assert init[i] == s[i] && init[i - 1] == s[i - 1];
        }
      }
      UniqueSeqFixesCollapsed(init);
      assert s[|s| - 1] != s[|s| - 2];
      assert s == init + [s[|s| - 1]];
    }
  }

  /** Collapsing twice is collapsing once. */
  lemma {:induction false} UniqueSeqIdempotent(s: seq<int>)
    ensures UniqueSeq(UniqueSeq(s)) == UniqueSeq(s)
  {
    UniqueSeqFixesCollapsed(UniqueSeq(s));
  }

  // ---------------------------------------------------------------------------
  // Reference sort
  // ---------------------------------------------------------------------------

  lemma SortedConsOfInsert(h: int, s: seq<int>, x: int, t: seq<int>)
    requires LowerBound(h, s) && h <= x
    requires Sorted(t) && multiset(t) == multiset(s) + multiset{x}
    ensures Sorted([h] + t)
  {
    assert LowerBound(h, t) by {
      forall y | y in t ensures h <= y {
        assert y in multiset(s) + multiset{x};
        assert y in s || y == x;
      }
    }
    if t != [] {
      LowerBoundOfCons(h, [h] + t);
    }
  }

  function InsertSorted(x: int, s: seq<int>): (r: seq<int>)
    requires Sorted(s)
    ensures Sorted(r) && multiset(r) == multiset(s) + multiset{x}
  {
    if s == [] || x <= s[0] then
      assert LowerBound(x, s) by {
        if s != [] { SortedTail(s); }
      }
      if s == [] then [x] else
      LowerBoundOfCons(x, [x] + s);
      [x] + s
    else
      SortedTail(s);
      var t := InsertSorted(x, s[1..]);
      SortedConsOfInsert(s[0], s[1..], x, t);
      assert s == [s[0]] + s[1..];
      [s[0]] + t
  }

  /** Insertion sort: an independent description of the sorted order. */
  function SortSeq(s: seq<int>): (r: seq<int>)
    ensures Sorted(r) && multiset(r) == multiset(s)
  {
    if s == [] then []
    else
      assert s == [s[0]] + s[1..];
      InsertSorted(s[0], SortSeq(s[1..]))
  }
}
